=== FILE: README.md ===
# Transcript importer: a Dafny model

This project models the core of the hearing-transcript uploader.

`XMLUtil` turns DOM elements into Java objects by reflection:
- `readElement` and `readPrimitive`;
- the child-element helpers `getChildElement`, the two `getChildElements` and `hasChildElements`.

`TranscriptDAO.insertIntoDatabase` imports one `<transcript>` element. It decodes it and saves it under its `id` attribute. Then it links the transcript to:
- its bills (get-or-create by id);
- its committee aliases (the first row of a `like` query, or a freshly created "Other House/Senate Committee" alias, in `insertCommittee`);
- its witnesses (each decoded and saved).

Committee names are trimmed and pass through `expandAmpersand`. A name starting with "Senate" then loses its first seven characters. `BillID` is the bill entity.

Modules:
- `Wrappers`: `Option` and `Result`.
- `Dom`: element and text nodes, `getTextContent`, `getAttribute`, and Java's `String.trim`.
- `XmlUtil`: the helpers as loops over the children, each proved equal to a reference function. It also holds the decoder. Reflection is replaced by a `Descriptor` of the target type:
  - a primitive;
  - a `Set`;
  - any other class, described by whether it has a `String` constructor and a no-argument constructor, and by its declared fields.
- `SqlLike`: the SQL `like` predicate (subclause 8.5 of ISO/IEC 9075-2, no ESCAPE), and the decimal text of a number.
- `BillIds`: the `BillID` entity.
- `CommitteeNames`: `expandAmpersand` and the chamber split by the "Senate" prefix.
- `TranscriptStore`: the session and database as one immutable store. Transcripts and bills are keyed by id. Aliases and witnesses are keyed by position. Relation links are kept as id-sets on both sides. `Valid` says every link is bidirectional. `Extends` says a store only grew.
- `TranscriptDao`: the import itself.
- `TranscriptDaoProperties`: the import keeps the store valid and only adds to it, plus properties relating several imports.

The entity classes `Transcript`, `CommitteeAliases` and `Witness` are not part of this model. Their shape is taken from how `TranscriptDAO` uses them. The transcript and witness classes are decoder descriptors given as parameters. They are required to be entity classes: a no-argument constructor and no `String` constructor.

Two behaviours of the Java code shape the model:
- The Senate split is `substring(7)` after `startsWith("Senate")`. The seventh character is dropped whatever it is, so "SenateX Committee" becomes " Committee". The bare name "Senate" fails: `substring(7)` is out of range for it, and that exception is not caught, so the import fails.
- A leaf element read into a class type needs a `String` constructor before its text is examined. A primitive target looks its wrapper constructor up only for non-empty text. So an empty `char` element gives null, and an empty leaf of an entity class fails.

## Model

| member | source | states |
|---|---|---|
| XmlUtil.GetChildElement | src/main/java/edu/temple/cla/papolicy/xmlutil/XMLUtil.java:109-117 | The sibling walk returns the first element child with the given name. It returns none exactly when no child is an element of that name. |
| XmlUtil.FirstNamedIsHeadOfNamed | src/main/java/edu/temple/cla/papolicy/xmlutil/XMLUtil.java:109-117 | The child `getChildElement` finds is the head of the list the named `getChildElements` builds. It finds none exactly when that list is empty. |
| XmlUtil.GetChildElements | src/main/java/edu/temple/cla/papolicy/xmlutil/XMLUtil.java:125-133 | The result holds exactly the element children, in document order. Text and other nodes are skipped. |
| XmlUtil.GetChildElementsNamed | src/main/java/edu/temple/cla/papolicy/xmlutil/XMLUtil.java:143-151 | The result holds exactly the element children carrying the name, in document order. |
| XmlUtil.HasChildElements | src/main/java/edu/temple/cla/papolicy/xmlutil/XMLUtil.java:159-166 | The result is true iff some child is an element, which is iff the element-children list is non-empty. |
| XmlUtil.ElementsOfAppend | src/main/java/edu/temple/cla/papolicy/xmlutil/XMLUtil.java:125-133 | Collecting the element children of two runs of siblings is the concatenation of collecting each. |
| XmlUtil.ReadPrimitive | src/main/java/edu/temple/cla/papolicy/xmlutil/XMLUtil.java:89-100 | Null iff the trimmed text is empty. Otherwise: `NoSuchMethod` iff the wrapper is `Character`. For any other wrapper, the read yields the wrapper applied to the trimmed text iff that text parses, and an invocation error carrying the text iff it does not. |
| XmlUtil.ReadElement | src/main/java/edu/temple/cla/papolicy/xmlutil/XMLUtil.java:46-76 | A `Set` target never decodes to anything but null. A successful read at a primitive type never yields an object with fields. A successful read into a class that has element children, or that has no `String` constructor, always yields a fresh instance with fields, whatever constructors the class declares. |
| XmlUtil.ReadElementPrimitive | src/main/java/edu/temple/cla/papolicy/xmlutil/XMLUtil.java:49-50 | A primitive target is exactly `readPrimitive`. Empty text is null. Non-empty text into `char` fails for lack of a constructor. |
| XmlUtil.ReadElementLeaf | src/main/java/edu/temple/cla/papolicy/xmlutil/XMLUtil.java:51-56 | An element without element children decodes iff the target is a class with a `String` constructor, even when the text is empty; otherwise the error is `NoSuchMethod`. Empty text gives null and other text the constructed object. |
| XmlUtil.ReadElementSetSkipped | src/main/java/edu/temple/cla/papolicy/xmlutil/XMLUtil.java:57-58 | An element with element children read into a `Set` is null, whatever the children are. |
| XmlUtil.ReadFields | src/main/java/edu/temple/cla/papolicy/xmlutil/XMLUtil.java:60-66 | A successful field loop leaves every field assigned before still assigned, and assigns only declared fields. |
| XmlUtil.ReadFieldsStep | src/main/java/edu/temple/cla/papolicy/xmlutil/XMLUtil.java:61-66 | One round of the field loop. A child whose tag names no declared field ends it with `NoSuchField` of that tag. A child that does not decode at its field's type ends it with that read's own error. A child that decodes sets its field and the loop continues. |
| XmlUtil.ReadFieldsFirstError | src/main/java/edu/temple/cla/papolicy/xmlutil/XMLUtil.java:61-66 | The field loop fails with exactly the error of the first child that does not decode. |
| XmlUtil.ReadFieldsSucceeds | src/main/java/edu/temple/cla/papolicy/xmlutil/XMLUtil.java:61-66 | The field loop succeeds iff every remaining child names a declared field and decodes at that field's type. |
| XmlUtil.ReadFieldsKeys | src/main/java/edu/temple/cla/papolicy/xmlutil/XMLUtil.java:61-66 | After the field loop, the assigned fields are those assigned before plus the tags of the remaining children. |
| XmlUtil.ReadFieldsLastWins | src/main/java/edu/temple/cla/papolicy/xmlutil/XMLUtil.java:61-66 | A field named by several children holds the value of the last of them. A field no remaining child names keeps its earlier value. |
| XmlUtil.LastNamedOfElements | src/main/java/edu/temple/cla/papolicy/xmlutil/XMLUtil.java:61 | The last child of a given name is the same whether non-element siblings are skipped or not. |
| XmlUtil.ReadElementRecordSucceeds | src/main/java/edu/temple/cla/papolicy/xmlutil/XMLUtil.java:59-74 | Reading into a class without a no-argument constructor fails with `Instantiation`. With one, the read succeeds iff every element child names a declared field and decodes at its type, and success is a fresh instance. Otherwise the error is the one for the first failing child: `NoSuchField` of its tag when no field is declared for it, else the error of reading it at its field's type. |
| XmlUtil.ReadElementFirstError | src/main/java/edu/temple/cla/papolicy/xmlutil/XMLUtil.java:59-74 | With a no-argument constructor, a failing read into a class with element children reports its first failing child, wrapped once. The error is `NoSuchField` of the child's tag when the class declares no such field (XMLUtil.java:62). Otherwise it is the error of reading the child at the field's type. |
| XmlUtil.ReadElementRecordFields | src/main/java/edu/temple/cla/papolicy/xmlutil/XMLUtil.java:59-66 | A successful read assigns exactly the fields named by the children's tags. Each holds the decoding, at its declared type, of the last child with that tag. |
| XmlUtil.TagsOfElements | src/main/java/edu/temple/cla/papolicy/xmlutil/XMLUtil.java:61-62 | The tags the field loop sees are the tags of all element children. |
| Dom.TextContentSplit | src/main/java/edu/temple/cla/papolicy/xmlutil/XMLUtil.java:53 | The text content of an element is the text content of any leading run of its children followed by that of the remaining children. |
| Dom.TextContentLeaves | src/main/java/edu/temple/cla/papolicy/xmlutil/XMLUtil.java:53 | A text child contributes exactly its data to the text content, and a comment or processing instruction contributes nothing. |
| Dom.Trim | src/main/java/edu/temple/cla/papolicy/xmlutil/XMLUtil.java:53 | The trimmed text is empty iff every character is at most a space. Otherwise it starts and ends with a character above a space. It is the slice of the input starting right after the leading run of such characters, and every character outside that slice is at most a space. So it is the longest infix without such characters at either end. |
| Dom.Attribute | src/main/java/edu/temple/cla/papolicy/transcriptdata/TranscriptDAO.java:96 | A missing attribute reads as the empty string. A present one reads as its value. |
| BillIds.NewBillID | src/main/java/edu/temple/cla/papolicy/transcriptdata/BillID.java:21 | A bill made with no arguments has no id and no transcripts. |
| BillIds.NewBillIDOf | src/main/java/edu/temple/cla/papolicy/transcriptdata/BillID.java:22 | A bill made from an id has that id and no transcripts. |
| BillIds.GetBillID | src/main/java/edu/temple/cla/papolicy/transcriptdata/BillID.java:24 | The getter returns the id the bill holds, none for a bill made without one. |
| BillIds.SetBillID | src/main/java/edu/temple/cla/papolicy/transcriptdata/BillID.java:24-27 | After `setBillID` the getter returns the new id, and the transcripts are unchanged. |
| BillIds.GetTranscripts | src/main/java/edu/temple/cla/papolicy/transcriptdata/BillID.java:29 | The getter returns the transcript set the bill holds. |
| BillIds.SetTranscripts | src/main/java/edu/temple/cla/papolicy/transcriptdata/BillID.java:29-32 | After `setTranscripts` the getter returns the new set, and the id is unchanged. |
| BillIds.AccessorsRoundTrip | src/main/java/edu/temple/cla/papolicy/transcriptdata/BillID.java:24-32 | Whatever order the setters run in, each getter returns the last value its setter was given. |
| CommitteeNames.ExpandAmpersand | src/main/java/edu/temple/cla/papolicy/transcriptdata/TranscriptDAO.java:197-204 | The replace-first-`&`-until-none loop terminates. It equals replacing every `&` independently by "and". No `&` is left, and the text grows by two per ampersand. |
| CommitteeNames.IndexOf | src/main/java/edu/temple/cla/papolicy/transcriptdata/TranscriptDAO.java:200 | `indexOf` gives -1 iff the character is absent. Otherwise it gives a position holding the character with none before it. |
| CommitteeNames.ReplaceOne | src/main/java/edu/temple/cla/papolicy/transcriptdata/TranscriptDAO.java:200-202 | Replacing one `&` by "and" removes exactly one ampersand and leaves the final expansion unchanged. This is the loop's variant and invariant. |
| CommitteeNames.ExpandedShape | src/main/java/edu/temple/cla/papolicy/transcriptdata/TranscriptDAO.java:197-204 | The expansion contains no `&`, and its length is the input's plus two per ampersand. |
| CommitteeNames.ExpandedAppend | src/main/java/edu/temple/cla/papolicy/transcriptdata/TranscriptDAO.java:197-204 | Expanding a concatenation is concatenating the expansions. |
| CommitteeNames.ExpandedIdentity | src/main/java/edu/temple/cla/papolicy/transcriptdata/TranscriptDAO.java:197-204 | A text without ampersands is returned unchanged. |
| CommitteeNames.ExpandedIdempotent | src/main/java/edu/temple/cla/papolicy/transcriptdata/TranscriptDAO.java:197-204 | Expanding an already expanded name changes nothing. |
| CommitteeNames.ExpandedExample | src/main/java/edu/temple/cla/papolicy/transcriptdata/TranscriptDAO.java:197-204 | "A & B && C" becomes "A and B andand C". |
| CommitteeNames.ClassifyCommittee | src/main/java/edu/temple/cla/papolicy/transcriptdata/TranscriptDAO.java:121-126 | The split fails iff the name is exactly "Senate". A name is Senate iff it starts with "Senate", and then the name is "Senate", one dropped character, and the result. Any other name is House and unchanged. |
| CommitteeNames.ClassifyRoundTrip | src/main/java/edu/temple/cla/papolicy/transcriptdata/TranscriptDAO.java:121-126 | The Senate split undoes prefixing "Senate" plus any one character. A name without the prefix is House as it stands. |
| CommitteeNames.ClassifyExample | src/main/java/edu/temple/cla/papolicy/transcriptdata/TranscriptDAO.java:121-122 | "SenateX Committee" is Senate " Committee". "Senate Education" is Senate "Education". "Senate" alone fails. |
| SqlLike.LikeLength | src/main/java/edu/temple/cla/papolicy/transcriptdata/TranscriptDAO.java:90-93 | A `like` pattern without `%` matches only values of its own length: every other pattern character consumes one value character. |
| SqlLike.LikePercentMatchesAll | src/main/java/edu/temple/cla/papolicy/transcriptdata/TranscriptDAO.java:90-93 | The pattern "%" matches every text. |
| SqlLike.LikeStartsWith | src/main/java/edu/temple/cla/papolicy/transcriptdata/TranscriptDAO.java:90-93 | `ctyCode like 'd%'` holds iff the code's text is non-empty and starts with the digit. |
| SqlLike.LikeReflexive | src/main/java/edu/temple/cla/papolicy/transcriptdata/TranscriptDAO.java:165 | A name used verbatim as the `:name` pattern matches itself, wildcards included. |
| SqlLike.LikeLiteral | src/main/java/edu/temple/cla/papolicy/transcriptdata/TranscriptDAO.java:165 | Under a case-sensitive collation, a pattern without wildcards matches exactly itself. |
| SqlLike.ThreeDigitLeading | src/main/java/edu/temple/cla/papolicy/transcriptdata/TranscriptDAO.java:169 | A three-digit committee code's text starts with its hundreds digit, the chamber digit. |
| TranscriptDao.GetOrCreateBill | src/main/java/edu/temple/cla/papolicy/transcriptdata/TranscriptDAO.java:105-112 | The bill is fetched by id, or else exactly one bill with that id is created. The bill and the transcript then list each other, and no other bill or transcript changes. |
| TranscriptDao.LinkBills | src/main/java/edu/temple/cla/papolicy/transcriptdata/TranscriptDAO.java:104-113 | After the loop, the transcript lists its earlier bills plus the `id` attributes of the children. Each listed bill that existed gains the transcript and is otherwise unchanged. Each listed bill that did not exist is created with that id, holding the transcript alone. No other bill is created or changed, and other transcripts are unchanged. |
| TranscriptDao.Candidates | src/main/java/edu/temple/cla/papolicy/transcriptdata/TranscriptDAO.java:165-166 | The query rows are exactly the aliases whose code starts with the chamber digit and whose alternate name matches the name, in ascending key order. |
| TranscriptDao.ChosenAlias | src/main/java/edu/temple/cla/papolicy/transcriptdata/TranscriptDAO.java:166-185 | The chosen key is the first matching row. When no row matches, it is the key the new alias receives. |
| TranscriptDao.ChosenAliasStable | src/main/java/edu/temple/cla/papolicy/transcriptdata/TranscriptDAO.java:166-185 | Growing the alias table by appending aliases and adding to transcript sets does not change the chosen key of a lookup that found a row. |
| TranscriptDao.NewAlias | src/main/java/edu/temple/cla/papolicy/transcriptdata/TranscriptDAO.java:168-178 | The created alias has code chamber*100+99, the chamber, the looked-up name as alternate name, "Other House Committee" or "Other Senate Committee", years 0 to 9999, and no transcripts. |
| TranscriptDao.NewAliasIsCandidate | src/main/java/edu/temple/cla/papolicy/transcriptdata/TranscriptDAO.java:168-171 | A created alias is itself a row of the query that created it. |
| TranscriptDao.SaveAlias | src/main/java/edu/temple/cla/papolicy/transcriptdata/TranscriptDAO.java:179 | Saving appends the alias under the next key and changes nothing else. |
| TranscriptDao.LinkAlias | src/main/java/edu/temple/cla/papolicy/transcriptdata/TranscriptDAO.java:180-181 | The transcript and the alias are added to each other's sets. Every other alias and transcript is unchanged. |
| TranscriptDao.InsertCommittee | src/main/java/edu/temple/cla/papolicy/transcriptdata/TranscriptDAO.java:162-190 | With no matching row, exactly one new alias is created and linked both ways. Otherwise only the first matching row is linked, and no alias is created or otherwise changed. The transcript gains exactly the chosen key. |
| TranscriptDao.AliasesGainedCompose | src/main/java/edu/temple/cla/papolicy/transcriptdata/TranscriptDAO.java:162-190 | Linking one alias (an existing row gaining the transcript, or a new row created for it alone) and then a further set of aliases is the same as linking the union of the two sets. |
| TranscriptDao.InsertCommitteeChosen | src/main/java/edu/temple/cla/papolicy/transcriptdata/TranscriptDAO.java:162-190 | After `insertCommittee` the alias table has only grown, and the same lookup now chooses an existing row: the key that was linked. |
| TranscriptDao.CommitteeTexts | src/main/java/edu/temple/cla/papolicy/transcriptdata/TranscriptDAO.java:118-120 | Each committee element is looked up by its trimmed, ampersand-expanded text, in document order. |
| TranscriptDao.LinkCommittees | src/main/java/edu/temple/cla/papolicy/transcriptdata/TranscriptDAO.java:118-127 | The committee loop fails iff some committee name is exactly "Senate". On success, the transcript gains exactly the set of keys its names resolve to in the final table. Each existing alias among them gains the transcript and is otherwise unchanged; every other existing alias is unchanged. Every alias the loop appends is one of those keys: the "Other ... Committee" row of a chamber for its alternate name, holding the transcript alone. Bills, witnesses and other transcripts are unchanged. |
| TranscriptDao.LinkCommitteesGainStep | src/main/java/edu/temple/cla/papolicy/transcriptdata/TranscriptDAO.java:118-127 | One round of the committee loop, for the alias table: the first name's link or created alias, followed by the rest of the loop's links and created aliases, is one combined set of links and one run of created aliases. |
| TranscriptDao.LinkCommitteesStep | src/main/java/edu/temple/cla/papolicy/transcriptdata/TranscriptDAO.java:118-127 | One round of the committee loop: the alias linked for the first name is still the one that name resolves to after the rest of the loop. |
| TranscriptDao.AddWitness | src/main/java/edu/temple/cla/papolicy/transcriptdata/TranscriptDAO.java:133-136 | The decoded witness is saved under the next key and points back to the transcript. The transcript lists that key, and nothing else changes. |
| TranscriptDao.ReadWitnesses | src/main/java/edu/temple/cla/papolicy/transcriptdata/TranscriptDAO.java:132-133 | Each witness element is decoded at the witness type, in order. A successful read of an entity class has fields. |
| TranscriptDao.LinkWitnesses | src/main/java/edu/temple/cla/papolicy/transcriptdata/TranscriptDAO.java:132-137 | The witness loop succeeds iff every witness decodes. It then appends one witness per element, changes no bill, alias or other transcript, and changes only the transcript's witness set. |
| TranscriptDao.LinkWitnessesContents | src/main/java/edu/temple/cla/papolicy/transcriptdata/TranscriptDAO.java:132-137 | The appended witnesses are the decoded fields in document order, each pointing back to the transcript. |
| TranscriptDao.LinkWitnessesKeys | src/main/java/edu/temple/cla/papolicy/transcriptdata/TranscriptDAO.java:132-137 | The transcript lists exactly its earlier witnesses plus the keys of the appended ones. |
| TranscriptDao.NewWitnesses | src/main/java/edu/temple/cla/papolicy/transcriptdata/TranscriptDAO.java:132-136 | One witness per decoded child, in document order, each holding the child's decoded fields and naming the transcript. |
| TranscriptDao.SaveWitnesses | src/main/java/edu/temple/cla/papolicy/transcriptdata/TranscriptDAO.java:130-137 | The witness branch succeeds iff every child decodes. It then appends one witness per child, and changes only witnesses and the transcript's witness set. |
| TranscriptDao.OpenWitnesses | src/main/java/edu/temple/cla/papolicy/transcriptdata/TranscriptDAO.java:131 | The transcript's witness set is replaced by a fresh empty set. Every other transcript, and the bill, alias and witness tables, are unchanged. |
| TranscriptDao.SaveWitnessesContents | src/main/java/edu/temple/cla/papolicy/transcriptdata/TranscriptDAO.java:130-137 | A successful witness branch leaves the witness list as the old list followed by the decoded children's witnesses. |
| TranscriptDao.SaveWitnessesKeys | src/main/java/edu/temple/cla/papolicy/transcriptdata/TranscriptDAO.java:130-137 | A successful witness branch gives the transcript exactly the keys of the witnesses it appended. |
| TranscriptDao.SaveTranscript | src/main/java/edu/temple/cla/papolicy/transcriptdata/TranscriptDAO.java:95-99 | The transcript is stored under its id with its decoded fields and no relation sets. Nothing else changes. |
| TranscriptDao.ResolveBills | src/main/java/edu/temple/cla/papolicy/transcriptdata/TranscriptDAO.java:101-114 | Without a `bills` child nothing changes. With one, the transcript's bill set is exactly the ids of that container's element children. Those bills list the transcript; the ones that did not exist are created holding it alone. No other bill is created or changed. |
| TranscriptDao.ResolveCommittees | src/main/java/edu/temple/cla/papolicy/transcriptdata/TranscriptDAO.java:115-128 | Without a `committees` child nothing changes. The step fails iff some committee name is exactly "Senate". On success only aliases and the committee set change. With a container, the set is exactly the keys the names resolve to. Linked existing aliases only gain the transcript, other existing aliases are unchanged, and every appended alias is one of those keys, created for the transcript alone. |
| TranscriptDao.ResolveWitnesses | src/main/java/edu/temple/cla/papolicy/transcriptdata/TranscriptDAO.java:129-138 | Without a `witnesses` child nothing changes. The step fails iff some witness child does not decode. On success the witness list is the old one followed by one witness per child, in order, with the child's fields and naming the transcript. Only witnesses and the witness set change. With a container, the set is exactly the keys of the new witnesses. |
| TranscriptDao.InsertIntoDatabase | src/main/java/edu/temple/cla/papolicy/transcriptdata/TranscriptDAO.java:89-149 | The import succeeds iff the element decodes, its `id` is new, no committee name is exactly "Senate", and every witness child decodes. A decode failure fails the import with that error, and so does a duplicate id. A successful import adds exactly one transcript under the `id` attribute. Its fields are the decoded ones minus the id and the relation containers. It has a bill, committee or witness set iff the element has the matching container. Earlier transcripts are unchanged. |
| TranscriptDaoProperties.GetOrCreateBillKeepsValid | src/main/java/edu/temple/cla/papolicy/transcriptdata/TranscriptDAO.java:105-112 | Get-or-create of a bill keeps every link bidirectional and only adds to the store. |
| TranscriptDaoProperties.LinkBillsKeepsValid | src/main/java/edu/temple/cla/papolicy/transcriptdata/TranscriptDAO.java:104-113 | The bill loop keeps every link bidirectional and only adds to the store. |
| TranscriptDaoProperties.InsertCommitteeKeepsValid | src/main/java/edu/temple/cla/papolicy/transcriptdata/TranscriptDAO.java:162-190 | Both branches of `insertCommittee` keep every link bidirectional and only add to the store. |
| TranscriptDaoProperties.InsertCommitteeAliases | src/main/java/edu/temple/cla/papolicy/transcriptdata/TranscriptDAO.java:166-189 | `insertCommittee` leaves earlier aliases as they were, apart from their transcript sets. It adds an alias only when no row matched. |
| TranscriptDaoProperties.LinkCommitteesKeepsValid | src/main/java/edu/temple/cla/papolicy/transcriptdata/TranscriptDAO.java:118-127 | A successful committee loop keeps every link bidirectional and only adds to the store. |
| TranscriptDaoProperties.AddWitnessKeepsValid | src/main/java/edu/temple/cla/papolicy/transcriptdata/TranscriptDAO.java:133-136 | Saving and linking one witness keeps every link bidirectional and only adds to the store. |
| TranscriptDaoProperties.LinkWitnessesKeepsValid | src/main/java/edu/temple/cla/papolicy/transcriptdata/TranscriptDAO.java:132-137 | A successful witness loop keeps every link bidirectional and only adds to the store. |
| TranscriptDaoProperties.SaveTranscriptKeepsValid | src/main/java/edu/temple/cla/papolicy/transcriptdata/TranscriptDAO.java:95-99 | Saving a transcript under a new id keeps the store valid and only adds to it. |
| TranscriptDaoProperties.InsertIntoDatabaseKeepsValid | src/main/java/edu/temple/cla/papolicy/transcriptdata/TranscriptDAO.java:89-149 | A successful import keeps every link bidirectional and only adds to the store: nothing is removed and no relation set shrinks. |
| TranscriptDaoProperties.InsertIntoDatabaseLinksBills | src/main/java/edu/temple/cla/papolicy/transcriptdata/TranscriptDAO.java:101-114 | After an import without a `bills` container, the transcript has no bill set and the bill table is unchanged. With one, the transcript's bills are exactly the ids in the container, and every one of those bills lists the transcript. Missing ones are created holding the transcript alone, and no other bill is created or changed. |
| TranscriptDaoProperties.InsertIntoDatabaseLinksCommittees | src/main/java/edu/temple/cla/papolicy/transcriptdata/TranscriptDAO.java:115-128 | After an import without a `committees` container, the transcript has no committee set and the alias table is unchanged. With one, the transcript lists exactly the keys its committee names resolve to, and each of them lists the transcript. Linked existing aliases only gain the transcript, the other existing aliases are unchanged, and every alias the import appended is one of those keys, created for the transcript alone. |
| TranscriptDaoProperties.InsertIntoDatabaseAddsWitnesses | src/main/java/edu/temple/cla/papolicy/transcriptdata/TranscriptDAO.java:129-138 | An import appends one witness per child of the `witnesses` container, in document order, each with the child's decoded fields and pointing back to the transcript. Earlier witnesses stay. |
| TranscriptDaoProperties.InsertIntoDatabaseLinksWitnesses | src/main/java/edu/temple/cla/papolicy/transcriptdata/TranscriptDAO.java:129-138 | After an import with a `witnesses` container, the transcript lists exactly the witnesses the import appended. |
| TranscriptDaoProperties.SameBillTwoTranscripts | src/main/java/edu/temple/cla/papolicy/transcriptdata/TranscriptDAO.java:105-112 | Two imports naming the same bill share one bill entity with that id, which lists both transcripts. |
| TranscriptDaoProperties.CommitteeLinkStable | src/main/java/edu/temple/cla/papolicy/transcriptdata/TranscriptDAO.java:162-190 | A second lookup of the same chamber and name picks the same alias as the first, and creates none. |

`Dom.TextContent` models `Node.getTextContent` (XMLUtil.java:53). It is a plain recursive definition, and what it computes is stated by the `Dom.TextContentSplit` and `Dom.TextContentLeaves` rows.

## Left out

- Reading the XML file, the DOM parser, the Hibernate session factory, `closeSession` and the program entry point are not modelled. `Main.java` is not part of this model. The model starts from a parsed element tree and an in-memory store.
- Transactions: `beginTransaction` and `commit` are not modelled. A failed import is an `Err` and the caller keeps the old store. The Java session would keep what it had already saved, and a commit failure ends the process.
- Logging and the diagnostic output on commit failure or in `insertCommittee`'s `catch (Throwable)` are not modelled.
- TranscriptDao.InsertCommittee: both set additions of the matched-row branch are assumed to succeed. In Java a throw from the second addition would be printed and swallowed, leaving the transcript listing the alias without the alias listing the transcript.
- The unreachable `t != null` branch is not modelled: `readElement` of an entity class never returns null.
- XmlUtil.ReadPrimitive: number parsing by the wrapper constructors is a parameter (`parses`), not a model of `Integer(String)` and the rest. A decoded value keeps its trimmed text instead of the parsed number.
- XmlUtil.ReadElement: a `String` constructor of a class is assumed to accept any text. Assigning null to a primitive field, which would throw, is not modelled.
- XmlUtil.ReadElement: the `RuntimeException` that wraps a reflective error is represented by that error. A nested read's `RuntimeException` is not caught by the enclosing read, so every failure reaches the caller wrapped exactly once, and the error alone identifies it.
- CommitteeNames.ClassifyCommittee: strings are modelled as sequences of Unicode code points, not of UTF-16 code units as in Java. Lengths and `substring(7)` therefore differ once a character outside the Basic Multilingual Plane appears in the first eight positions. For example, "Senate" followed by U+1F600 gives the empty name here. Java gives a lone low surrogate, which then goes into the `like` query (TranscriptDAO.java:122). Dom.Trim and the `like` comparison make the same code-point assumption.
- XmlUtil.ReadElement: an `IllegalAccessException` from an inaccessible `String` or no-argument constructor (XMLUtil.java:55, 60) is not modelled. A class is described only when each constructor it declares for the decoder is one the decoder may call. Field access cannot fail this way, because each field is made accessible first (XMLUtil.java:63).
- SqlLike.Like: collation is modelled only as ASCII case folding or exact comparison.
- TranscriptDao.Candidates: the database gives the query's rows no order. The model takes rows in key order, so "the first row" is the lowest matching key.
- TranscriptDao.NewAlias: the `short` casts of code, chamber and years are not modelled. The values used (199, 299, 1, 2, 0, 9999) fit in a `short`.
- TranscriptDao.InsertIntoDatabase: a transcript id already in the store fails the import. Hibernate would reject the duplicate at save or commit time.
- TranscriptDao.LinkCommittees, TranscriptDao.LinkWitnesses: the model computes each child's lookup name or decoded value first and then runs the loop over those. The Java loop interleaves the two. Both orders give the same store, because a lookup name or a decoding does not depend on the store.

=== FILE: bill_id.dfy ===
/** The `BillID` entity: a bill number cited by transcripts, with the set of
    transcripts citing it. Transcripts are referred to by their ids. */
module BillIds {
  import opened Wrappers

  /** A bill: its id (`None` until one is set) and the ids of the
      transcripts that cite it. */
  datatype BillID = BillID(billID: Option<string>, transcripts: set<string>)

  /** `new BillID()`: no id yet, no transcripts. */
  function NewBillID(): (b: BillID)
    ensures b.billID.None?
    ensures b.transcripts == {}
  {
    BillID(None, {})
  }

  /** `new BillID(s)`: the id is `s`, no transcripts yet. */
  function NewBillIDOf(s: string): (b: BillID)
    ensures b.billID == Some(s)
    ensures b.transcripts == {}
  {
    BillID(Some(s), {})
  }

  /** `getBillID`: the stored id, `None` for a bill made without one. */
  function GetBillID(b: BillID): (r: Option<string>)
    ensures r == b.billID
  {
    b.billID
  }

  /** `setBillID`: replaces the id, keeps the transcripts. */
  function SetBillID(b: BillID, s: Option<string>): (r: BillID)
    ensures GetBillID(r) == s
    ensures r.transcripts == b.transcripts
  {
    b.(billID := s)
  }

  /** `getTranscripts`: the stored transcript set. */
  function GetTranscripts(b: BillID): (r: set<string>)
    ensures r == b.transcripts
  {
    b.transcripts
  }

  /** `setTranscripts`: replaces the transcripts, keeps the id. */
  function SetTranscripts(b: BillID, ts: set<string>): (r: BillID)
    ensures GetTranscripts(r) == ts
    ensures r.billID == b.billID
  {
    b.(transcripts := ts)
  }

  /** The getters return the last value given to the matching setter, and
      each setter leaves the other property alone. */
  lemma AccessorsRoundTrip(b: BillID, s: Option<string>, ts: set<string>)
    ensures GetBillID(SetBillID(SetTranscripts(b, ts), s)) == s
    ensures GetTranscripts(SetBillID(SetTranscripts(b, ts), s)) == ts
    ensures GetBillID(SetTranscripts(SetBillID(b, s), ts)) == s
    ensures GetTranscripts(SetTranscripts(SetBillID(b, s), ts)) == ts
  {
  }
}

=== FILE: committee_names.dfy ===
/** The text handling `TranscriptDAO` applies to a committee element before
    looking the committee up: ampersand expansion and the chamber
    classification by the "Senate" prefix. */
module CommitteeNames {
  import opened Wrappers

  // ---------------------------------------------------------------------
  // Ampersand expansion
  // ---------------------------------------------------------------------

  /** The number of ampersands in `s`. */
  function Ampersands(s: string): nat {
    multiset(s)['&']
  }

  /** `s` with every `&` replaced, independently, by "and"; all other
      characters keep their order. */
  function Expanded(s: string): string
  {
    if s == [] then []
    else (if s[0] == '&' then "and" else [s[0]]) + Expanded(s[1..])
  }

  /** The expansion holds no ampersand and is two characters longer per
      ampersand of the input. */
  lemma {:induction false} ExpandedShape(s: string)
    ensures '&' !in Expanded(s)
    ensures |Expanded(s)| == |s| + 2 * Ampersands(s)
  {
    if s != [] {
      ExpandedShape(s[1..]);
      assert s == [s[0]] + s[1..];
      assert multiset(s) == multiset([s[0]]) + multiset(s[1..]);
    }
  }

  lemma {:induction false} ExpandedAppend(a: string, b: string)
    ensures Expanded(a + b) == Expanded(a) + Expanded(b)
  {
    if a == [] {
      assert a + b == b;
    } else {
      assert (a + b)[1..] == a[1..] + b;
      ExpandedAppend(a[1..], b);
    }
  }

  /** A text without ampersands is left as it is. */
  lemma {:induction false} ExpandedIdentity(s: string)
    requires '&' !in s
    ensures Expanded(s) == s
  {
    if s != [] {
      assert s[0] in s;
      assert forall c :: c in s[1..] ==> c in s;
      ExpandedIdentity(s[1..]);
    }
  }

  /** Expanding twice is expanding once. */
  lemma ExpandedIdempotent(s: string)
    ensures Expanded(Expanded(s)) == Expanded(s)
  {
    ExpandedShape(s);
    ExpandedIdentity(Expanded(s));
  }

  lemma ExpandedCons(c: char, s: string)
    ensures Expanded([c] + s) == (if c == '&' then "and" else [c]) + Expanded(s)
  {
    assert ([c] + s)[1..] == s;
  }

  /** The head of `ExpandedExample`: a lone ampersand between words. */
  lemma ExpandedExampleHead()
    ensures Expanded("A & B") == "A and B"
  {
    ExpandedCons('B', []);
    ExpandedCons(' ', "B");
    ExpandedCons('&', " B");
    ExpandedCons(' ', "& B");
    ExpandedCons('A', " & B");
  }

  /** The tail of `ExpandedExample`: two adjacent ampersands become two
      words. */
  lemma ExpandedExampleTail()
    ensures Expanded(" && C") == " andand C"
  {
    ExpandedCons('C', []);
    ExpandedCons(' ', "C");
    ExpandedCons('&', " C");
    ExpandedCons('&', "& C");
    ExpandedCons(' ', "&& C");
  }

  /** Each `&` is replaced on its own: "A & B && C" becomes
      "A and B andand C". */
  lemma ExpandedExample()
    ensures Expanded("A & B && C") == "A and B andand C"
  {
    var head, tail := "A & B", " && C";
    ExpandedExampleHead();
    ExpandedExampleTail();
    ExpandedAppend(head, tail);
    assert head + tail == "A & B && C";
    assert Expanded(head) + Expanded(tail) == "A and B andand C";
  }

  /** `StringBuilder.indexOf`: the position of the first `c` in `s`, or -1. */
  function IndexOf(s: string, c: char): (r: int)
    ensures r == -1 <==> c !in s
    ensures r != -1 ==> 0 <= r < |s| && s[r] == c && c !in s[..r]
  {
    if s == [] then -1
    else if s[0] == c then 0
    else
      var k := IndexOf(s[1..], c);
      assert forall x :: x in s[1..] ==> x in s;
      if k == -1 then -1
      else
        assert s[..k + 1] == [s[0]] + s[1..][..k];
        k + 1
  }

  lemma ExpandedWords()
    ensures Expanded("and") == "and"
    ensures Expanded("&") == "and"
  {
    ExpandedCons('d', []);
    ExpandedCons('n', "d");
    ExpandedCons('a', "nd");
    ExpandedCons('&', []);
  }

  /** One iteration of the loop: replacing an `&` by "and" removes one
      ampersand and does not change the final expansion. */
  lemma ReplaceOne(pre: string, post: string)
    ensures Expanded(pre + "and" + post) == Expanded(pre + "&" + post)
    ensures Ampersands(pre + "and" + post) == Ampersands(pre + "&" + post) - 1
  {
    ExpandedAppend(pre + "and", post);
    ExpandedAppend(pre, "and");
    ExpandedAppend(pre + "&", post);
    ExpandedAppend(pre, "&");
    ExpandedWords();
    var amp, word := "&", "and";
    assert multiset(word)['&'] == 0;
    assert multiset(amp)['&'] == 1;
  }

  /** `expandAmpersand`: repeatedly replaces the first `&` by "and" until
      none is left. Each round removes one ampersand, so the loop ends, and
      the result is the independent replacement of every `&`. */
  method ExpandAmpersand(s: string) returns (r: string)
    ensures r == Expanded(s)
    ensures '&' !in r
    ensures |r| == |s| + 2 * Ampersands(s)
  {
    var stb := s;
    var index := IndexOf(stb, '&');
    while index != -1
      invariant index == IndexOf(stb, '&')
      invariant Expanded(stb) == Expanded(s)
      decreases Ampersands(stb)
    {
      assert stb == stb[..index] + "&" + stb[index + 1..];
      ReplaceOne(stb[..index], stb[index + 1..]);
      stb := stb[..index] + "and" + stb[index + 1..];
      index := IndexOf(stb, '&');
    }
    ExpandedIdentity(stb);
    ExpandedShape(s);
    r := stb;
  }

  // ---------------------------------------------------------------------
  // Chamber classification
  // ---------------------------------------------------------------------

  /** The two chambers; committee codes of a chamber start with its digit. */
  datatype Chamber = House | Senate {
    function Number(): int {
      if House? then 1 else 2
    }

    function CodeDigit(): char {
      if House? then '1' else '2'
    }

    /** The canonical name given to a committee alias created on the fly. */
    function OtherCommitteeName(): string {
      if House? then "Other House Committee" else "Other Senate Committee"
    }
  }

  predicate StartsWith(s: string, prefix: string) {
    |prefix| <= |s| && s[..|prefix|] == prefix
  }

  /** `String.substring(7)` of a name shorter than 7 characters. */
  datatype ClassifyError = SubstringOutOfRange(name: string)

  /** A committee name starting with "Senate" belongs to the Senate and loses
      its first seven characters, whatever the seventh is; any other name
      belongs to the House unchanged. The bare name "Senate" is too short to
      strip and fails. */
  function ClassifyCommittee(name: string): (r: Result<(Chamber, string), ClassifyError>)
    ensures r.Err? <==> name == "Senate"
    ensures r.Ok? ==> (r.value.0 == Senate <==> StartsWith(name, "Senate"))
    ensures r.Ok? && r.value.0 == Senate ==> "Senate" + [name[6]] + r.value.1 == name
    ensures r.Ok? && r.value.0 == House ==> r.value.1 == name
  {
    if StartsWith(name, "Senate") then
      if |name| < 7 then Err(SubstringOutOfRange(name))
      else Ok((Senate, name[7..]))
    else Ok((House, name))
  }

  /** The Senate strip undoes prefixing "Senate" and any one character; a
      name without the prefix is classified House as it is. */
  lemma ClassifyRoundTrip(c: char, rest: string, other: string)
    requires !StartsWith(other, "Senate")
    ensures ClassifyCommittee("Senate" + [c] + rest) == Ok((Senate, rest))
    ensures ClassifyCommittee(other) == Ok((House, other))
  {
    var s := "Senate" + [c] + rest;
    assert s[..6] == "Senate";
    assert s[7..] == rest;
  }

  /** The seventh character is dropped even when it is not a space, and the
      eighth is kept even when it is one. */
  lemma ClassifyExample()
    ensures ClassifyCommittee("SenateX Committee") == Ok((Senate, " Committee"))
    ensures ClassifyCommittee("Senate Education") == Ok((Senate, "Education"))
    ensures ClassifyCommittee("Senate") == Err(SubstringOutOfRange("Senate"))
  {
    ClassifyRoundTrip('X', " Committee", "");
    ClassifyRoundTrip(' ', "Education", "");
  }
}

=== FILE: dom.dfy ===
/** The part of the W3C DOM that the decoder and the importer look at: a tree
    of elements, character data and other nodes, the text content of a node,
    attribute lookup, and Java's `String.trim`. */
module Dom {

  /** A DOM node. `Text` covers text and CDATA sections; `Other` covers
      comments and processing instructions, which carry no text content. */
  datatype Node =
    | Element(name: string, attrs: map<string, string>, children: seq<Node>)
    | Text(data: string)
    | Other

  /** Concatenation of a sequence of strings, in order. */
  function Concat(ss: seq<string>): string
  {
    if ss == [] then "" else ss[0] + Concat(ss[1..])
  }

  /** `Node.getTextContent`: the concatenation of the text of every
      descendant text node, in document order. */
  function TextContent(n: Node): string
  {
    match n
    case Text(s) => s
    case Other => ""
    case Element(_, _, cs) => Concat(seq(|cs|, i requires 0 <= i < |cs| => TextContent(cs[i])))
  }

  /** Concatenating two runs of strings is concatenating the two results. */
  lemma {:induction false} ConcatAppend(a: seq<string>, b: seq<string>)
    ensures Concat(a + b) == Concat(a) + Concat(b)
  {
    if a == [] {
      assert a + b == b;
    } else {
      assert (a + b)[0] == a[0];
      assert (a + b)[1..] == a[1..] + b;
      ConcatAppend(a[1..], b);
    }
  }

  /** The text content of an element is that of its first run of children
      followed by that of the rest: splitting the children anywhere splits
      the text at the same point. */
  lemma TextContentSplit(name: string, attrs: map<string, string>, a: seq<Node>, b: seq<Node>)
    ensures TextContent(Element(name, attrs, a + b))
         == TextContent(Element(name, attrs, a)) + TextContent(Element(name, attrs, b))
  {
    var cs := a + b;
    var all := seq(|cs|, i requires 0 <= i < |cs| => TextContent(cs[i]));
    var xs := seq(|a|, i requires 0 <= i < |a| => TextContent(a[i]));
    var ys := seq(|b|, i requires 0 <= i < |b| => TextContent(b[i]));
    assert all == xs + ys;
    ConcatAppend(xs, ys);
  }

  /** Comments and processing instructions contribute nothing, and a text
      node contributes its data. */
  lemma TextContentLeaves(name: string, attrs: map<string, string>, d: string)
    ensures TextContent(Element(name, attrs, [Other])) == ""
    ensures TextContent(Element(name, attrs, [Text(d)])) == d
  {
    var t := [Text(d)];
    assert seq(|t|, i requires 0 <= i < |t| => TextContent(t[i])) == [d];
    assert Concat([d]) == d + Concat([]);
    var o := [Other];
    assert seq(|o|, i requires 0 <= i < |o| => TextContent(o[i])) == [""];
    assert Concat([""]) == "" + Concat([]);
  }

  /** `Element.getAttribute`: the attribute's value, or the empty string when
      the element has no such attribute. */
  function Attribute(e: Node, key: string): (r: string)
    requires e.Element?
    ensures key !in e.attrs ==> r == ""
    ensures key in e.attrs ==> r == e.attrs[key]
  {
    if key in e.attrs then e.attrs[key] else ""
  }

  /** The characters `String.trim` removes: every code point up to U+0020. */
  predicate IsTrimmable(c: char) {
    c <= ' '
  }

  function TrimLeading(s: string): (r: string)
    ensures |r| <= |s| && r == s[|s| - |r|..]
    ensures forall k :: 0 <= k < |s| - |r| ==> IsTrimmable(s[k])
    ensures r != [] ==> !IsTrimmable(r[0])
  {
    if s != [] && IsTrimmable(s[0]) then TrimLeading(s[1..]) else s
  }

  function TrimTrailing(s: string): (r: string)
    ensures |r| <= |s| && r == s[..|r|]
    ensures forall k :: |r| <= k < |s| ==> IsTrimmable(s[k])
    ensures r != [] ==> !IsTrimmable(r[|r| - 1])
  {
    if s != [] && IsTrimmable(s[|s| - 1]) then TrimTrailing(s[..|s| - 1]) else s
  }

  /** `String.trim`: the longest infix of `s` that neither starts nor ends
      with a trimmable character. It starts after the leading run of
      trimmable characters, and everything outside it is trimmable. */
  function Trim(s: string): (r: string)
    ensures r == [] <==> forall k :: 0 <= k < |s| ==> IsTrimmable(s[k])
    ensures r != [] ==> !IsTrimmable(r[0]) && !IsTrimmable(r[|r| - 1])
    ensures var i := |s| - |TrimLeading(s)|;
            && i + |r| <= |s| && r == s[i..i + |r|]
            && (forall k :: 0 <= k < i ==> IsTrimmable(s[k]))
            && (forall k :: i + |r| <= k < |s| ==> IsTrimmable(s[k]))
  {
    var left := TrimLeading(s);
    var r := TrimTrailing(left);
    TrimSlices(s, left, r);
    r
  }

  /** The slicing facts behind `Trim`, stated over what `TrimLeading` and
      `TrimTrailing` promise rather than over their definitions. */
  lemma TrimSlices(s: string, left: string, r: string)
    requires |left| <= |s| && left == s[|s| - |left|..]
    requires forall k :: 0 <= k < |s| - |left| ==> IsTrimmable(s[k])
    requires left != [] ==> !IsTrimmable(left[0])
    requires |r| <= |left| && r == left[..|r|]
    requires forall k :: |r| <= k < |left| ==> IsTrimmable(left[k])
    requires r != [] ==> !IsTrimmable(r[|r| - 1])
    ensures r == [] <==> forall k :: 0 <= k < |s| ==> IsTrimmable(s[k])
    ensures r != [] ==> !IsTrimmable(r[0]) && !IsTrimmable(r[|r| - 1])
    ensures var d := |s| - |left|;
            && d + |r| <= |s| && r == s[d..d + |r|]
            && (forall k :: 0 <= k < d ==> IsTrimmable(s[k]))
            && (forall k :: d + |r| <= k < |s| ==> IsTrimmable(s[k]))
  {
    var d := |s| - |left|;
    PrefixOfSuffix(s, d, left, r);
    forall k | d + |r| <= k < |s|
      ensures IsTrimmable(s[k])
    {
      assert s[k] == left[k - d];
    }
    if r != [] {
      assert r[0] == left[0];
      assert s[d] == r[0];
    }
  }

  /** A prefix of the suffix of `s` from `d` is the slice of `s` from `d`. */
  lemma PrefixOfSuffix(s: string, d: nat, left: string, r: string)
    requires d <= |s| && left == s[d..] && |r| <= |left| && r == left[..|r|]
    ensures d + |r| <= |s| && r == s[d..d + |r|]
  {
  }
}

=== FILE: sql_like.dfy ===
/** The SQL `like` predicate the committee query relies on, as defined in
    subclause 8.5 (<like predicate>) of ISO/IEC 9075-2, without an ESCAPE
    clause, and the decimal text a numeric column is compared as. Whether
    letters compare case-insensitively depends on the database collation, so
    it is a parameter. */
module SqlLike {

  /** Case folding of a case-insensitive collation, on ASCII letters. */
  function Lower(c: char): char {
    if 'A' <= c <= 'Z' then (c as int + 32) as char else c
  }

  /** Whether a value character equals a pattern character under the
      collation. */
  predicate CharMatches(v: char, p: char, caseSensitive: bool) {
    if caseSensitive then v == p else Lower(v) == Lower(p)
  }

  predicate IsWildcard(c: char) {
    c == '%' || c == '_'
  }

  /** `v LIKE p`: `%` in the pattern stands for any sequence of zero or more
      characters, `_` for exactly one character, and every other pattern
      character for one value character equal to it. */
  predicate Like(v: string, p: string, caseSensitive: bool)
    decreases |v| + |p|
  {
    if p == [] then v == []
    else if p[0] == '%' then Like(v, p[1..], caseSensitive) || (v != [] && Like(v[1..], p, caseSensitive))
      else v != [] && (p[0] == '_' || CharMatches(v[0], p[0], caseSensitive)) && Like(v[1..], p[1..], caseSensitive)
  }

  /** Without `%`, every pattern character consumes exactly one value
      character, so a match has the pattern's length. */
  lemma {:induction false} LikeLength(v: string, p: string, caseSensitive: bool)
    requires '%' !in p
    ensures Like(v, p, caseSensitive) ==> |v| == |p|
    decreases |p|
  {
    if p != [] && v != [] {
      assert forall c :: c in p[1..] ==> c in p;
      LikeLength(v[1..], p[1..], caseSensitive);
    }
  }

  /** A lone `%` matches every value. */
  lemma {:induction false} LikePercentMatchesAll(v: string, caseSensitive: bool)
    ensures Like(v, "%", caseSensitive)
  {
    if v != [] {
      LikePercentMatchesAll(v[1..], caseSensitive);
    }
  }

  /** Every value matches itself used as a pattern, whatever wildcards it
      contains. */
  lemma {:induction false} LikeReflexive(v: string, caseSensitive: bool)
    ensures Like(v, v, caseSensitive)
  {
    if v != [] {
      LikeReflexive(v[1..], caseSensitive);
      if v[0] == '%' {
        // `%` consumes the value's own `%`, then stops matching
        assert Like(v[1..], v[1..], caseSensitive);
        assert Like(v[1..], v, caseSensitive);
      }
    }
  }

  /** A pattern without wildcards, compared case-sensitively, matches exactly
      the value equal to it. */
  lemma {:induction false} LikeLiteral(v: string, p: string)
    requires forall i :: 0 <= i < |p| ==> !IsWildcard(p[i])
    ensures Like(v, p, true) <==> v == p
  {
    if p != [] && v != [] {
      LikeLiteral(v[1..], p[1..]);
      if v[0] == p[0] && v[1..] == p[1..] {
        assert v == [v[0]] + v[1..];
        assert p == [p[0]] + p[1..];
      }
    }
  }

  /** `c%` with `c` an ordinary character matches exactly the values that
      start with a character equal to `c`. */
  lemma LikeStartsWith(v: string, c: char, caseSensitive: bool)
    requires !IsWildcard(c)
    ensures Like(v, [c, '%'], caseSensitive) <==> v != [] && CharMatches(v[0], c, caseSensitive)
  {
    var p := [c, '%'];
    assert p[1..] == "%";
    if v != [] {
      LikePercentMatchesAll(v[1..], caseSensitive);
    }
  }

  /** The character of a decimal digit. */
  function DigitChar(d: nat): char
    requires d < 10
  {
    "0123456789"[d]
  }

  /** The decimal text of a natural number, most significant digit first,
      without leading zeros. */
  function Digits(n: nat): (r: string)
    ensures |r| >= 1
    ensures forall i :: 0 <= i < |r| ==> '0' <= r[i] <= '9'
    decreases n
  {
    if n < 10 then [DigitChar(n)] else Digits(n / 10) + [DigitChar(n % 10)]
  }

  /** The text an integer column is compared as by `like`. */
  function IntText(n: int): string {
    if n < 0 then "-" + Digits(-n) else Digits(n)
  }

  /** A three-digit number's text starts with its hundreds digit. */
  lemma ThreeDigitLeading(n: nat)
    requires 100 <= n < 1000
    ensures IntText(n)[0] == DigitChar(n / 100)
  {
    assert Digits(n) == Digits(n / 10) + [DigitChar(n % 10)];
    assert Digits(n / 10) == Digits(n / 100) + [DigitChar(n / 10 % 10)];
  }
}

=== FILE: transcript_dao.dfy ===
/** `TranscriptDAO.insertIntoDatabase` and `insertCommittee`: one transcript
    element is decoded, saved under its `id` attribute, and linked to its
    bills (get-or-create by id), its committee aliases (first match of a
    `like` query, or a new "Other ... Committee" alias) and its witnesses. */
module TranscriptDao {
  import opened Wrappers
  import opened Dom
  import opened XmlUtil
  import opened SqlLike
  import opened BillIds
  import opened CommitteeNames
  import opened TranscriptStore

  /** Why importing one transcript fails. A failed import leaves the store as
      it was: its unit of work is never committed. */
  datatype ImportError =
    | DecodeFailed(decodeError: DecodeError)
    | ClassifyFailed(classifyError: ClassifyError)
    | DuplicateTranscript(id: string)

  // ---------------------------------------------------------------------
  // Bills
  // ---------------------------------------------------------------------

  predicate BillsOpen(st: Store, tid: string) {
    tid in st.transcripts && st.transcripts[tid].bills.Some?
  }

  /** Get-or-create of the bill `billId`, linked to transcript `tid` on both
      sides: an existing bill is reused, otherwise exactly one new bill with
      that id is added. */
  function GetOrCreateBill(st: Store, tid: string, billId: string): (r: Store)
    requires BillsOpen(st, tid)
    ensures r.bills.Keys == st.bills.Keys + {billId}
    ensures billId in st.bills ==>
              r.bills[billId] == st.bills[billId].(transcripts := st.bills[billId].transcripts + {tid})
    ensures billId !in st.bills ==> r.bills[billId] == BillID(Some(billId), {tid})
    ensures forall b :: b in st.bills && b != billId ==> r.bills[b] == st.bills[b]
    ensures r.transcripts.Keys == st.transcripts.Keys
    ensures r.transcripts[tid] == st.transcripts[tid].(bills := Some(st.transcripts[tid].bills.value + {billId}))
    ensures forall t :: t in st.transcripts && t != tid ==> r.transcripts[t] == st.transcripts[t]
    ensures r.aliases == st.aliases && r.witnesses == st.witnesses
  {
    var bill := if billId in st.bills then st.bills[billId] else NewBillIDOf(billId);
    var t := st.transcripts[tid];
    st.(bills := st.bills[billId := SetTranscripts(bill, GetTranscripts(bill) + {tid})],
        transcripts := st.transcripts[tid := t.(bills := Some(t.bills.value + {billId}))])
  }

  /** The `id` attributes of the elements `cs`. */
  function BillIdsOf(cs: seq<Node>): set<string> {
    set c | c in cs && c.Element? :: Attribute(c, "id")
  }

  /** `after` is the bill table `before` once transcript `tid` has been
      linked to the bills `ids`: a listed bill that existed gains `tid`, a
      listed bill that did not is created holding `tid` alone, and no other
      bill is created or changed. */
  predicate BillsGained(before: map<string, BillID>, after: map<string, BillID>, ids: set<string>, tid: string) {
    && after.Keys == before.Keys + ids
    && (forall b :: b in ids && b in before ==> after[b] == before[b].(transcripts := before[b].transcripts + {tid}))
    && (forall b :: b in ids && b !in before ==> after[b] == BillID(Some(b), {tid}))
    && (forall b :: b in before && b !in ids ==> after[b] == before[b])
  }

  /** The loop over the children of a `bills` element. */
  function LinkBills(st: Store, tid: string, cs: seq<Node>): (r: Store)
    requires BillsOpen(st, tid)
    requires forall c :: c in cs ==> c.Element?
    ensures BillsOpen(r, tid)
    ensures r.transcripts.Keys == st.transcripts.Keys
    ensures BillsGained(st.bills, r.bills, BillIdsOf(cs), tid)
    ensures r.transcripts[tid].bills == Some(st.transcripts[tid].bills.value + BillIdsOf(cs))
    ensures r.transcripts[tid] == st.transcripts[tid].(bills := r.transcripts[tid].bills)
    ensures forall t :: t in st.transcripts && t != tid ==> r.transcripts[t] == st.transcripts[t]
    ensures r.aliases == st.aliases && r.witnesses == st.witnesses
    decreases |cs|
  {
    if cs == [] then
      assert BillIdsOf(cs) == {};
      assert st.transcripts[tid].bills.value + {} == st.transcripts[tid].bills.value;
      st
    else
      assert BillIdsOf(cs) == {Attribute(cs[0], "id")} + BillIdsOf(cs[1..]) by {
        assert forall c :: c in cs <==> c == cs[0] || c in cs[1..];
      }
      var mid := GetOrCreateBill(st, tid, Attribute(cs[0], "id"));
      var r := LinkBills(mid, tid, cs[1..]);
      assert mid.transcripts[tid].bills.value + BillIdsOf(cs[1..])
          == st.transcripts[tid].bills.value + BillIdsOf(cs);
      r
  }

  // ---------------------------------------------------------------------
  // Committees
  // ---------------------------------------------------------------------

  predicate CommitteesOpen(st: Store, tid: string) {
    tid in st.transcripts && st.transcripts[tid].committees.Some?
  }

  /** A row of the committee query `ctyCode like '<digit>%' and
      alternateName like :name`, the name being used verbatim as pattern. */
  predicate IsCandidate(a: CommitteeAlias, chamber: Chamber, name: string, caseSensitive: bool) {
    && Like(IntText(a.ctyCode), [chamber.CodeDigit(), '%'], caseSensitive)
    && a.alternateName.Some?
    && Like(a.alternateName.value, name, caseSensitive)
  }

  /** Whether each alias is a row of the committee query, by position. */
  function Matches(aliases: seq<CommitteeAlias>, chamber: Chamber, name: string, caseSensitive: bool): (m: seq<bool>)
    ensures |m| == |aliases|
    ensures forall i :: 0 <= i < |aliases| ==> (m[i] <==> IsCandidate(aliases[i], chamber, name, caseSensitive))
  {
    seq(|aliases|, i requires 0 <= i < |aliases| => IsCandidate(aliases[i], chamber, name, caseSensitive))
  }

  /** The positions from `from` on whose entry in `m` is set, in scan order. */
  function Rows(m: seq<bool>, from: nat): (r: seq<nat>)
    requires from <= |m|
    ensures forall i :: i in r <==> from <= i < |m| && m[i]
    ensures forall j, k :: 0 <= j < k < |r| ==> r[j] < r[k]
    decreases |m| - from
  {
    if from == |m| then []
    else
      var rest := Rows(m, from + 1);
      var head := if m[from] then [from] else [];
      forall k | 0 <= k < |rest|
        ensures from < rest[k]
      {
        assert rest[k] in rest;
      }
      assert forall i :: i in head + rest <==> i in head || i in rest;
      head + rest
  }

  /** The keys of the query's rows from position `from` on, in scan order. */
  function Candidates(aliases: seq<CommitteeAlias>, chamber: Chamber, name: string,
                      caseSensitive: bool, from: nat): (r: seq<nat>)
    requires from <= |aliases|
    ensures forall i :: i in r <==> from <= i < |aliases| && IsCandidate(aliases[i], chamber, name, caseSensitive)
    ensures forall j, k :: 0 <= j < k < |r| ==> r[j] < r[k]
  {
    Rows(Matches(aliases, chamber, name, caseSensitive), from)
  }

  /** The alias `insertCommittee` links: the first row of the query, or,
      when the query is empty, the key the new alias receives. */
  function ChosenAlias(aliases: seq<CommitteeAlias>, chamber: Chamber, name: string,
                       caseSensitive: bool): (k: nat)
    ensures k <= |aliases|
    ensures k == |aliases| <==> forall j :: 0 <= j < |aliases| ==> !IsCandidate(aliases[j], chamber, name, caseSensitive)
    ensures k < |aliases| ==> IsCandidate(aliases[k], chamber, name, caseSensitive)
    ensures forall j :: 0 <= j < k && j < |aliases| ==> !IsCandidate(aliases[j], chamber, name, caseSensitive)
  {
    var list := Candidates(aliases, chamber, name, caseSensitive, 0);
    if list == [] then |aliases|
    else
      assert list[0] in list;
      assert forall j :: j in list ==> list[0] <= j by {
        forall j | j in list
          ensures list[0] <= j
        {
          var p :| 0 <= p < |list| && list[p] == j;
          if p > 0 {
            assert list[0] < list[p];
          }
        }
      }
      list[0]
  }

  /** The alias saved when no row matches, before any transcript is linked
      to it. */
  function NewAlias(chamber: Chamber, name: string): (a: CommitteeAlias)
    ensures a.ctyCode == chamber.Number() * 100 + 99 && a.chamber == chamber.Number()
    ensures a.alternateName == Some(name) && a.name == chamber.OtherCommitteeName()
    ensures a.startYear == 0 && a.endYear == 9999
    ensures a.transcripts == {}
  {
    CommitteeAlias(chamber.Number() * 100 + 99, chamber.Number(), Some(name),
                   chamber.OtherCommitteeName(), 0, 9999, {})
  }

  /** A created alias is a row of the query that found nothing for its name:
      its code starts with the chamber digit and its alternate name is the
      name, which matches itself as a pattern. */
  lemma NewAliasIsCandidate(chamber: Chamber, name: string, caseSensitive: bool)
    ensures IsCandidate(NewAlias(chamber, name), chamber, name, caseSensitive)
  {
    var a := NewAlias(chamber, name);
    ThreeDigitLeading(a.ctyCode);
    assert DigitChar(a.ctyCode / 100) == chamber.CodeDigit();
    LikeStartsWith(IntText(a.ctyCode), chamber.CodeDigit(), caseSensitive);
    LikeReflexive(name, caseSensitive);
  }

  /** `b` holds the aliases of `a`, unchanged except for their transcript
      sets, followed by any new ones. */
  predicate AliasesGrow(a: seq<CommitteeAlias>, b: seq<CommitteeAlias>) {
    |a| <= |b| && forall i :: 0 <= i < |a| ==> b[i] == a[i].(transcripts := b[i].transcripts)
  }

  lemma AliasesGrowTransitive(a: seq<CommitteeAlias>, b: seq<CommitteeAlias>, c: seq<CommitteeAlias>)
    requires AliasesGrow(a, b) && AliasesGrow(b, c)
    ensures AliasesGrow(a, c)
  {
    forall i | 0 <= i < |a|
      ensures c[i] == a[i].(transcripts := c[i].transcripts)
    {
      assert b[i] == a[i].(transcripts := b[i].transcripts);
    }
  }

  /** An alias the import created for transcript `tid`: the "Other ...
      Committee" row of one of the two chambers for its alternate name,
      linked to `tid` alone. */
  predicate CreatedFor(a: CommitteeAlias, tid: string) {
    && a.alternateName.Some?
    && (|| a == NewAlias(House, a.alternateName.value).(transcripts := {tid})
        || a == NewAlias(Senate, a.alternateName.value).(transcripts := {tid}))
  }

  /** `after` is the alias table `before` once transcript `tid` has been
      linked to the aliases `keys`: a linked alias that existed gains `tid`,
      every other existing alias is unchanged, and every appended alias is
      one of `keys`, created for `tid`. */
  predicate AliasesGained(before: seq<CommitteeAlias>, after: seq<CommitteeAlias>, keys: set<nat>, tid: string) {
    && |before| <= |after|
    && (forall i :: 0 <= i < |before| && i in keys ==>
          after[i] == before[i].(transcripts := before[i].transcripts + {tid}))
    && (forall i :: 0 <= i < |before| && i !in keys ==> after[i] == before[i])
    && (forall k :: |before| <= k < |after| ==> k in keys && CreatedFor(after[k], tid))
  }

  /** Once a name has a matching row, growing the table does not change which
      row is chosen for it: links never alter what the query compares. */
  lemma ChosenAliasStable(a: seq<CommitteeAlias>, b: seq<CommitteeAlias>, chamber: Chamber, name: string,
                          caseSensitive: bool)
    requires AliasesGrow(a, b) && ChosenAlias(a, chamber, name, caseSensitive) < |a|
    ensures ChosenAlias(b, chamber, name, caseSensitive) == ChosenAlias(a, chamber, name, caseSensitive)
  {
    var k := ChosenAlias(a, chamber, name, caseSensitive);
    assert forall j :: 0 <= j < |a| ==>
      (IsCandidate(b[j], chamber, name, caseSensitive) <==> IsCandidate(a[j], chamber, name, caseSensitive)) by {
      forall j | 0 <= j < |a|
        ensures IsCandidate(b[j], chamber, name, caseSensitive) <==> IsCandidate(a[j], chamber, name, caseSensitive)
      {
        assert b[j] == a[j].(transcripts := b[j].transcripts);
      }
    }
    assert IsCandidate(b[k], chamber, name, caseSensitive);
  }

  /** `dbSession.save` of a new alias: it receives the next key. */
  function SaveAlias(st: Store, a: CommitteeAlias): (r: Store)
    ensures r.aliases == st.aliases + [a] && |r.aliases| - 1 == |st.aliases|
    ensures r.transcripts == st.transcripts && r.bills == st.bills && r.witnesses == st.witnesses
  {
    st.(aliases := st.aliases + [a])
  }

  /** Transcript `tid` and alias `k` added to each other's sets; nothing
      else changes. */
  function LinkAlias(st: Store, tid: string, k: nat): (r: Store)
    requires CommitteesOpen(st, tid) && k < |st.aliases|
    ensures CommitteesOpen(r, tid)
    ensures |r.aliases| == |st.aliases|
    ensures r.aliases[k] == st.aliases[k].(transcripts := st.aliases[k].transcripts + {tid})
    ensures forall j :: 0 <= j < |st.aliases| && j != k ==> r.aliases[j] == st.aliases[j]
    ensures r.transcripts.Keys == st.transcripts.Keys
    ensures r.transcripts[tid] == st.transcripts[tid].(committees := Some(st.transcripts[tid].committees.value + {k}))
    ensures forall t :: t in st.transcripts && t != tid ==> r.transcripts[t] == st.transcripts[t]
    ensures r.bills == st.bills && r.witnesses == st.witnesses
  {
    var a := st.aliases[k];
    var t := st.transcripts[tid];
    st.(aliases := st.aliases[k := a.(transcripts := a.transcripts + {tid})],
        transcripts := st.transcripts[tid := t.(committees := Some(t.committees.value + {k}))])
  }

  /** `insertCommittee`: with no matching row (`ChosenAlias` is the next
      key), exactly one new alias is created and linked both ways; otherwise
      only the first matching row is linked both ways and no alias is created
      or otherwise changed. */
  function InsertCommittee(st: Store, tid: string, chamber: Chamber, name: string, caseSensitive: bool): (r: Store)
    requires CommitteesOpen(st, tid)
    ensures CommitteesOpen(r, tid)
    ensures r.transcripts.Keys == st.transcripts.Keys && r.bills == st.bills && r.witnesses == st.witnesses
    ensures forall t :: t in st.transcripts && t != tid ==> r.transcripts[t] == st.transcripts[t]
    ensures var k := ChosenAlias(st.aliases, chamber, name, caseSensitive);
            r.transcripts[tid] == st.transcripts[tid].(committees := Some(st.transcripts[tid].committees.value + {k}))
    ensures var k := ChosenAlias(st.aliases, chamber, name, caseSensitive);
            k == |st.aliases| ==> r.aliases == st.aliases + [NewAlias(chamber, name).(transcripts := {tid})]
    ensures var k := ChosenAlias(st.aliases, chamber, name, caseSensitive);
            k < |st.aliases| ==>
              && |r.aliases| == |st.aliases|
              && r.aliases[k] == st.aliases[k].(transcripts := st.aliases[k].transcripts + {tid})
              && forall j :: 0 <= j < |st.aliases| && j != k ==> r.aliases[j] == st.aliases[j]
  {
    var k := ChosenAlias(st.aliases, chamber, name, caseSensitive);
    if k == |st.aliases| then
      var saved := SaveAlias(st, NewAlias(chamber, name));
      var r := LinkAlias(saved, tid, k);
      assert {} + {tid} == {tid};
      assert r.aliases[k] == NewAlias(chamber, name).(transcripts := {tid});
      assert r.aliases == st.aliases + [NewAlias(chamber, name).(transcripts := {tid})];
      r
    else
      LinkAlias(st, tid, k)
  }

  /** After `insertCommittee` the table has only grown, and the same lookup
      now finds the alias that was linked. */
  lemma InsertCommitteeChosen(st: Store, tid: string, chamber: Chamber, name: string, caseSensitive: bool)
    requires CommitteesOpen(st, tid)
    ensures var r := InsertCommittee(st, tid, chamber, name, caseSensitive);
            && AliasesGrow(st.aliases, r.aliases)
            && ChosenAlias(r.aliases, chamber, name, caseSensitive) == ChosenAlias(st.aliases, chamber, name, caseSensitive)
            && ChosenAlias(r.aliases, chamber, name, caseSensitive) < |r.aliases|
  {
    var r := InsertCommittee(st, tid, chamber, name, caseSensitive);
    var k := ChosenAlias(st.aliases, chamber, name, caseSensitive);
    if k == |st.aliases| {
      assert r.aliases == st.aliases + [NewAlias(chamber, name).(transcripts := {tid})];
      assert AliasesGrow(st.aliases, r.aliases);
      NewAliasIsCandidate(chamber, name, caseSensitive);
      assert IsCandidate(r.aliases[k], chamber, name, caseSensitive);
      var k1 := ChosenAlias(r.aliases, chamber, name, caseSensitive);
      assert forall j :: 0 <= j < k ==> r.aliases[j] == st.aliases[j];
      assert k1 == k;
    } else {
      assert AliasesGrow(st.aliases, r.aliases);
      ChosenAliasStable(st.aliases, r.aliases, chamber, name, caseSensitive);
    }
  }

  /** The name a committee element is looked up by: its trimmed text with
      ampersands expanded. */
  function CommitteeText(c: Node): string {
    Expanded(Trim(TextContent(c)))
  }

  /** The lookup names of the committee elements `cs`, in order. */
  function CommitteeTexts(cs: seq<Node>): (r: seq<string>)
    ensures |r| == |cs| && forall j :: 0 <= j < |cs| ==> r[j] == CommitteeText(cs[j])
  {
    seq(|cs|, j requires 0 <= j < |cs| => CommitteeText(cs[j]))
  }

  /** The aliases the lookup names `names` resolve to in the table
      `aliases`: for every name the chamber split accepts, the row its query
      chooses. */
  function ChosenKeys(aliases: seq<CommitteeAlias>, names: seq<string>, caseSensitive: bool): set<nat> {
    set j | 0 <= j < |names| && ClassifyCommittee(names[j]).Ok?
      :: ChosenAlias(aliases, ClassifyCommittee(names[j]).value.0, ClassifyCommittee(names[j]).value.1, caseSensitive)
  }

  lemma ChosenKeysCons(aliases: seq<CommitteeAlias>, names: seq<string>, caseSensitive: bool,
                       chamber: Chamber, name: string)
    requires names != [] && ClassifyCommittee(names[0]) == Ok((chamber, name))
    ensures ChosenKeys(aliases, names, caseSensitive)
         == {ChosenAlias(aliases, chamber, name, caseSensitive)} + ChosenKeys(aliases, names[1..], caseSensitive)
  {
    var all := ChosenKeys(aliases, names, caseSensitive);
    var rest := ChosenKeys(aliases, names[1..], caseSensitive);
    forall j | 1 <= j < |names| && ClassifyCommittee(names[j]).Ok?
      ensures ChosenAlias(aliases, ClassifyCommittee(names[j]).value.0, ClassifyCommittee(names[j]).value.1,
                          caseSensitive) in rest
    {
      assert names[1..][j - 1] == names[j];
    }
    forall j | 0 <= j < |names[1..]| && ClassifyCommittee(names[1..][j]).Ok?
      ensures ChosenAlias(aliases, ClassifyCommittee(names[1..][j]).value.0, ClassifyCommittee(names[1..][j]).value.1,
                          caseSensitive) in all
    {
      assert names[j + 1] == names[1..][j];
    }
    assert ChosenAlias(aliases, chamber, name, caseSensitive) in all;
  }

  /** The loop over the children of a `committees` element, given their
      lookup names: each is split into chamber and name and linked. It fails
      exactly when some name is the bare word "Senate", which the chamber
      split cannot cut. On success the table has only grown and the
      transcript gained exactly the aliases its names resolve to in the final
      table. */
  function LinkCommittees(st: Store, tid: string, names: seq<string>, caseSensitive: bool): (r: Result<Store, ImportError>)
    requires CommitteesOpen(st, tid)
    ensures r.Ok? <==> forall j :: 0 <= j < |names| ==> names[j] != "Senate"
    ensures r.Ok? ==> CommitteesOpen(r.value, tid) && r.value.transcripts.Keys == st.transcripts.Keys
    ensures r.Ok? ==> r.value.bills == st.bills && r.value.witnesses == st.witnesses
    ensures r.Ok? ==> r.value.transcripts[tid] == st.transcripts[tid].(committees := r.value.transcripts[tid].committees)
    ensures r.Ok? ==> forall t :: t in st.transcripts && t != tid ==> r.value.transcripts[t] == st.transcripts[t]
    ensures r.Ok? ==> AliasesGrow(st.aliases, r.value.aliases)
    ensures r.Ok? ==> r.value.transcripts[tid].committees.value
                      == st.transcripts[tid].committees.value + ChosenKeys(r.value.aliases, names, caseSensitive)
    ensures r.Ok? ==> AliasesGained(st.aliases, r.value.aliases, ChosenKeys(r.value.aliases, names, caseSensitive), tid)
    decreases |names|
  {
    if names == [] then
      assert ChosenKeys(st.aliases, names, caseSensitive) == {};
      assert st.transcripts[tid].committees.value + {} == st.transcripts[tid].committees.value;
      Ok(st)
    else
      match ClassifyCommittee(names[0])
      case Err(e) => Err(ClassifyFailed(e))
      case Ok((chamber, name)) =>
        var mid := InsertCommittee(st, tid, chamber, name, caseSensitive);
        var rest := LinkCommittees(mid, tid, names[1..], caseSensitive);
        assert forall j :: 1 <= j < |names| ==> names[j] == names[1..][j - 1];
        if rest.Err? then rest
        else
          LinkCommitteesStep(st, tid, names, caseSensitive, chamber, name, rest.value);
          LinkCommitteesGainStep(st, tid, names, caseSensitive, chamber, name, rest.value);
          rest
  }

  /** Links to the alias `k0` (an existing one, or one appended for `tid`)
      followed by the links `rest` are the links `{k0} + rest`. */
  lemma AliasesGainedCompose(before: seq<CommitteeAlias>, mid: seq<CommitteeAlias>, after: seq<CommitteeAlias>,
                             k0: nat, rest: set<nat>, tid: string)
    requires k0 < |before| ==>
               && mid == before[k0 := before[k0].(transcripts := before[k0].transcripts + {tid})]
    requires k0 >= |before| ==> k0 == |before| && |mid| == k0 + 1 && mid[..k0] == before && CreatedFor(mid[k0], tid)
    requires AliasesGained(mid, after, rest, tid)
    ensures AliasesGained(before, after, {k0} + rest, tid)
  {
    var keys := {k0} + rest;
    forall i | 0 <= i < |before| && i in keys
      ensures after[i] == before[i].(transcripts := before[i].transcripts + {tid})
    {
      if i == k0 {
        assert {tid} + {tid} == {tid};
        assert before[i].transcripts + {tid} + {tid} == before[i].transcripts + {tid};
      } else {
        assert mid[i] == before[i];
      }
    }
    forall i | 0 <= i < |before| && i !in keys
      ensures after[i] == before[i]
    {
      assert mid[i] == before[i];
    }
    forall k | |before| <= k < |after|
      ensures k in keys && CreatedFor(after[k], tid)
    {
      if k < |mid| {
        assert k == k0 && CreatedFor(mid[k], tid);
        assert mid[k].transcripts == {tid} && {tid} + {tid} == {tid};
      }
    }
  }

  /** One round of the committee loop, for the alias table: what the first
      name's `insertCommittee` did and what the rest of the loop did combine
      into one set of links and one run of created aliases. */
  lemma LinkCommitteesGainStep(st: Store, tid: string, names: seq<string>, caseSensitive: bool,
                               chamber: Chamber, name: string, r: Store)
    requires CommitteesOpen(st, tid) && names != [] && ClassifyCommittee(names[0]) == Ok((chamber, name))
    requires var mid := InsertCommittee(st, tid, chamber, name, caseSensitive);
             && AliasesGrow(mid.aliases, r.aliases)
             && AliasesGained(mid.aliases, r.aliases, ChosenKeys(r.aliases, names[1..], caseSensitive), tid)
    ensures AliasesGained(st.aliases, r.aliases, ChosenKeys(r.aliases, names, caseSensitive), tid)
  {
    var mid := InsertCommittee(st, tid, chamber, name, caseSensitive);
    var k0 := ChosenAlias(st.aliases, chamber, name, caseSensitive);
    InsertCommitteeChosen(st, tid, chamber, name, caseSensitive);
    ChosenAliasStable(mid.aliases, r.aliases, chamber, name, caseSensitive);
    ChosenKeysCons(r.aliases, names, caseSensitive, chamber, name);
    if k0 == |st.aliases| {
      assert mid.aliases[..k0] == st.aliases;
      assert mid.aliases[k0] == NewAlias(chamber, name).(transcripts := {tid});
    } else {
      assert mid.aliases == st.aliases[k0 := st.aliases[k0].(transcripts := st.aliases[k0].transcripts + {tid})];
    }
    AliasesGainedCompose(st.aliases, mid.aliases, r.aliases, k0, ChosenKeys(r.aliases, names[1..], caseSensitive), tid);
  }

  /** One round of the committee loop: the name just linked resolves, in the
      final table, to the alias it was linked to. */
  lemma LinkCommitteesStep(st: Store, tid: string, names: seq<string>, caseSensitive: bool,
                           chamber: Chamber, name: string, r: Store)
    requires CommitteesOpen(st, tid) && names != [] && ClassifyCommittee(names[0]) == Ok((chamber, name))
    requires var mid := InsertCommittee(st, tid, chamber, name, caseSensitive);
             && CommitteesOpen(r, tid)
             && AliasesGrow(mid.aliases, r.aliases)
             && r.transcripts[tid].committees.value
                == mid.transcripts[tid].committees.value + ChosenKeys(r.aliases, names[1..], caseSensitive)
    ensures AliasesGrow(st.aliases, r.aliases)
    ensures r.transcripts[tid].committees.value
            == st.transcripts[tid].committees.value + ChosenKeys(r.aliases, names, caseSensitive)
  {
    var mid := InsertCommittee(st, tid, chamber, name, caseSensitive);
    var k := ChosenAlias(st.aliases, chamber, name, caseSensitive);
    InsertCommitteeChosen(st, tid, chamber, name, caseSensitive);
    AliasesGrowTransitive(st.aliases, mid.aliases, r.aliases);
    ChosenAliasStable(mid.aliases, r.aliases, chamber, name, caseSensitive);
    ChosenKeysCons(r.aliases, names, caseSensitive, chamber, name);
    assert mid.transcripts[tid].committees.value == st.transcripts[tid].committees.value + {k};
  }

  // ---------------------------------------------------------------------
  // Witnesses
  // ---------------------------------------------------------------------

  predicate WitnessesOpen(st: Store, tid: string) {
    tid in st.transcripts && st.transcripts[tid].witnesses.Some?
  }

  /** Entity classes have a no-argument constructor and no `String`
      constructor, so reading one either fails or yields its fields. */
  predicate EntityClass(d: Descriptor) {
    d.Class? && d.defaultCtor && !d.stringCtor
  }

  /** A decoded witness saved, added to the transcript's witnesses, and given
      the transcript as its back-reference. */
  function AddWitness(st: Store, tid: string, fields: map<string, Value>): (r: Store)
    requires WitnessesOpen(st, tid)
    ensures r.witnesses == st.witnesses + [Witness(fields, Some(tid))]
    ensures r.transcripts.Keys == st.transcripts.Keys
    ensures r.transcripts[tid] == st.transcripts[tid].(witnesses := Some(st.transcripts[tid].witnesses.value + {|st.witnesses|}))
    ensures forall t :: t in st.transcripts && t != tid ==> r.transcripts[t] == st.transcripts[t]
    ensures r.bills == st.bills && r.aliases == st.aliases
  {
    var t := st.transcripts[tid];
    st.(witnesses := st.witnesses + [Witness(fields, Some(tid))],
        transcripts := st.transcripts[tid := t.(witnesses := Some(t.witnesses.value + {|st.witnesses|}))])
  }

  /** The keys `lo` up to (not including) `hi`. */
  function KeyRange(lo: nat, hi: nat): (r: set<nat>)
    ensures forall k :: k in r <==> lo <= k < hi
    decreases hi - lo
  {
    if lo >= hi then {} else {lo} + KeyRange(lo + 1, hi)
  }

  /** Every successful read in `ds` produced an instance with fields. */
  predicate Records(ds: seq<Result<Value, DecodeError>>) {
    forall j :: 0 <= j < |ds| && ds[j].Ok? ==> ds[j].value.Rec?
  }

  /** The reads of the witness elements `cs`, in order. A read of an entity
      class that succeeds yields an instance with fields. */
  function ReadWitnesses(wd: Descriptor, cs: seq<Node>, parses: Parser): (ds: seq<Result<Value, DecodeError>>)
    requires EntityClass(wd) && forall c :: c in cs ==> c.Element?
    ensures |ds| == |cs| && Records(ds)
    ensures forall j :: 0 <= j < |cs| ==> ds[j] == ReadElement(wd, cs[j], parses)
  {
    seq(|cs|, j requires 0 <= j < |cs| => ReadElement(wd, cs[j], parses))
  }

  /** The loop over the children of a `witnesses` element, given their
      reads: each is saved as a witness and linked, in order; the first read
      that failed fails the import. */
  function LinkWitnesses(st: Store, tid: string, ds: seq<Result<Value, DecodeError>>): (r: Result<Store, ImportError>)
    requires WitnessesOpen(st, tid) && Records(ds)
    ensures r.Ok? <==> forall j :: 0 <= j < |ds| ==> ds[j].Ok?
    ensures r.Ok? ==> WitnessesOpen(r.value, tid) && r.value.transcripts.Keys == st.transcripts.Keys
    ensures r.Ok? ==> |r.value.witnesses| == |st.witnesses| + |ds| && st.witnesses <= r.value.witnesses
    ensures r.Ok? ==> r.value.transcripts[tid] == st.transcripts[tid].(witnesses := r.value.transcripts[tid].witnesses)
    ensures r.Ok? ==> forall t :: t in st.transcripts && t != tid ==> r.value.transcripts[t] == st.transcripts[t]
    ensures r.Ok? ==> r.value.bills == st.bills && r.value.aliases == st.aliases
    decreases |ds|
  {
    if ds == [] then Ok(st)
    else if ds[0].Err? then Err(DecodeFailed(ds[0].error))
    else
      assert forall j :: 1 <= j < |ds| ==> ds[j] == ds[1..][j - 1];
      LinkWitnesses(AddWitness(st, tid, ds[0].value.fields), tid, ds[1..])
  }

  /** After the witness loop, the new witnesses are the reads' fields in
      order, each pointing back to the transcript. */
  lemma {:induction false} LinkWitnessesContents(st: Store, tid: string, ds: seq<Result<Value, DecodeError>>)
    requires WitnessesOpen(st, tid) && Records(ds)
    requires LinkWitnesses(st, tid, ds).Ok?
    ensures forall j :: 0 <= j < |ds| ==>
              LinkWitnesses(st, tid, ds).value.witnesses[|st.witnesses| + j] == Witness(ds[j].value.fields, Some(tid))
    decreases |ds|
  {
    if ds != [] {
      var r := LinkWitnesses(st, tid, ds).value;
      var mid := AddWitness(st, tid, ds[0].value.fields);
      assert forall j :: 1 <= j < |ds| ==> ds[j] == ds[1..][j - 1];
      assert r == LinkWitnesses(mid, tid, ds[1..]).value;
      LinkWitnessesContents(mid, tid, ds[1..]);
      assert r.witnesses[|st.witnesses|] == mid.witnesses[|st.witnesses|];
      forall j | 1 <= j < |ds|
        ensures r.witnesses[|st.witnesses| + j] == Witness(ds[j].value.fields, Some(tid))
      {
        assert |st.witnesses| + j == |mid.witnesses| + (j - 1);
      }
    }
  }

  /** After the witness loop the transcript lists exactly the new witness
      keys in addition to those it had, and is otherwise unchanged. */
  lemma {:induction false} LinkWitnessesKeys(st: Store, tid: string, ds: seq<Result<Value, DecodeError>>)
    requires WitnessesOpen(st, tid) && Records(ds)
    requires LinkWitnesses(st, tid, ds).Ok?
    ensures LinkWitnesses(st, tid, ds).value.transcripts[tid]
         == st.transcripts[tid].(witnesses :=
              Some(st.transcripts[tid].witnesses.value + KeyRange(|st.witnesses|, |st.witnesses| + |ds|)))
    decreases |ds|
  {
    var before := st.transcripts[tid].witnesses.value;
    var n := |st.witnesses|;
    if ds == [] {
      assert KeyRange(n, n) == {};
      assert before + {} == before;
    } else {
      var r := LinkWitnesses(st, tid, ds).value;
      var mid := AddWitness(st, tid, ds[0].value.fields);
      assert forall j :: 1 <= j < |ds| ==> ds[j] == ds[1..][j - 1];
      assert r == LinkWitnesses(mid, tid, ds[1..]).value;
      LinkWitnessesKeys(mid, tid, ds[1..]);
      var rest := KeyRange(n + 1, n + |ds|);
      assert |mid.witnesses| == n + 1 && |mid.witnesses| + |ds[1..]| == n + |ds|;
      assert KeyRange(n, n + |ds|) == {n} + rest;
      assert mid.transcripts[tid].witnesses.value == before + {n};
      assert (before + {n}) + rest == before + ({n} + rest);
    }
  }

  // ---------------------------------------------------------------------
  // One transcript
  // ---------------------------------------------------------------------

  /** Decoded tags the importer does not keep as scalar fields: the id, which
      the `id` attribute overrides, and the three relation containers, whose
      sets the importer installs itself. */
  const ReplacedTags: set<string> := {"id", "bills", "committees", "witnesses"}

  /** `dbSession.save(t)` of the freshly decoded transcript, which has no
      relation sets installed yet. */
  function SaveTranscript(st: Store, id: string, fields: map<string, Value>): (r: Store)
    ensures r.transcripts == st.transcripts[id := Transcript(id, fields, None, None, None)]
    ensures r.bills == st.bills && r.aliases == st.aliases && r.witnesses == st.witnesses
  {
    st.(transcripts := st.transcripts[id := Transcript(id, fields, None, None, None)])
  }

  /** The `bills` container, when present: a fresh empty set is installed,
      then every child element is linked by its `id` attribute. The bill
      table gains exactly those links and nothing else. */
  function ResolveBills(st: Store, tid: string, e: Node): (r: Store)
    requires e.Element? && tid in st.transcripts
    ensures r.transcripts.Keys == st.transcripts.Keys
    ensures r.transcripts[tid] == st.transcripts[tid].(bills := r.transcripts[tid].bills)
    ensures forall t :: t in st.transcripts && t != tid ==> r.transcripts[t] == st.transcripts[t]
    ensures r.aliases == st.aliases && r.witnesses == st.witnesses
    ensures FirstNamed(e.children, "bills").None? ==> r == st
    ensures FirstNamed(e.children, "bills").Some? ==>
              var ids := BillIdsOf(ElementsOf(FirstNamed(e.children, "bills").value.children));
              && r.transcripts[tid].bills == Some(ids)
              && BillsGained(st.bills, r.bills, ids, tid)
  {
    match FirstNamed(e.children, "bills")
    case None => st
    case Some(b) =>
      var t := st.transcripts[tid];
      var ids := BillIdsOf(ElementsOf(b.children));
      assert {} + ids == ids;
      LinkBills(st.(transcripts := st.transcripts[tid := t.(bills := Some({}))]), tid, ElementsOf(b.children))
  }

  /** The lookup names of the children of the `committees` container, empty
      when there is none. */
  function CommitteeLookups(e: Node): seq<string>
    requires e.Element?
  {
    match FirstNamed(e.children, "committees")
    case None => []
    case Some(c) => CommitteeTexts(ElementsOf(c.children))
  }

  /** The committee loop can split every name of the element: none is the
      bare word "Senate". */
  predicate CommitteesSplit(e: Node)
    requires e.Element?
  {
    forall j :: 0 <= j < |CommitteeLookups(e)| ==> CommitteeLookups(e)[j] != "Senate"
  }

  /** The children of the `witnesses` container, empty when there is none. */
  function WitnessElements(e: Node): (cs: seq<Node>)
    requires e.Element?
    ensures forall c :: c in cs ==> c.Element?
  {
    match FirstNamed(e.children, "witnesses")
    case None => []
    case Some(w) => ElementsOf(w.children)
  }

  /** Every witness child of the element decodes at the witness type. */
  predicate WitnessesDecode(e: Node, wd: Descriptor, parses: Parser)
    requires e.Element?
  {
    forall j :: 0 <= j < |WitnessElements(e)| ==>
      WitnessElements(e)[j].Element? && ReadElement(wd, WitnessElements(e)[j], parses).Ok?
  }

  /** The `committees` container, when present: a fresh empty set is
      installed, then every child element is classified and linked. It fails
      exactly when some name is the bare word "Senate"; otherwise the
      transcript is linked to exactly the aliases its names resolve to. */
  function ResolveCommittees(st: Store, tid: string, e: Node, caseSensitive: bool): (r: Result<Store, ImportError>)
    requires e.Element? && tid in st.transcripts
    ensures r.Ok? <==> CommitteesSplit(e)
    ensures FirstNamed(e.children, "committees").None? ==> r == Ok(st)
    ensures r.Ok? ==> r.value.transcripts.Keys == st.transcripts.Keys
    ensures r.Ok? ==> r.value.transcripts[tid] == st.transcripts[tid].(committees := r.value.transcripts[tid].committees)
    ensures r.Ok? ==> forall t :: t in st.transcripts && t != tid ==> r.value.transcripts[t] == st.transcripts[t]
    ensures r.Ok? ==> r.value.bills == st.bills && r.value.witnesses == st.witnesses
    ensures r.Ok? ==> AliasesGrow(st.aliases, r.value.aliases)
    ensures r.Ok? && FirstNamed(e.children, "committees").Some? ==>
              var keys := ChosenKeys(r.value.aliases, CommitteeLookups(e), caseSensitive);
              && r.value.transcripts[tid].committees == Some(keys)
              && AliasesGained(st.aliases, r.value.aliases, keys, tid)
  {
    match FirstNamed(e.children, "committees")
    case None =>
      assert AliasesGrow(st.aliases, st.aliases);
      Ok(st)
    case Some(c) =>
      var t := st.transcripts[tid];
      var started := st.(transcripts := st.transcripts[tid := t.(committees := Some({}))]);
      var names := CommitteeTexts(ElementsOf(c.children));
      assert CommitteeLookups(e) == names;
      var r := LinkCommittees(started, tid, names, caseSensitive);
      assert r.Ok? ==> {} + ChosenKeys(r.value.aliases, names, caseSensitive)
                       == ChosenKeys(r.value.aliases, names, caseSensitive);
      r
  }

  /** The witnesses the element children `cs` become once each has been
      decoded: one per child, in order, holding the child's fields and naming
      the transcript `tid`. */
  function NewWitnesses(wd: Descriptor, cs: seq<Node>, parses: Parser, tid: string): (ws: seq<Witness>)
    requires EntityClass(wd)
    requires forall j :: 0 <= j < |cs| ==> cs[j].Element? && ReadElement(wd, cs[j], parses).Ok?
    ensures |ws| == |cs|
    ensures forall j :: 0 <= j < |cs| ==> ws[j] == Witness(ReadElement(wd, cs[j], parses).value.fields, Some(tid))
  {
    seq(|cs|, j requires 0 <= j < |cs| => Witness(ReadElement(wd, cs[j], parses).value.fields, Some(tid)))
  }

  /** The body of the `witnesses` branch over the container's child
      elements `cs`: a fresh empty set is installed, then every child is
      decoded, saved and linked. */
  function SaveWitnesses(st: Store, tid: string, cs: seq<Node>, wd: Descriptor, parses: Parser): (r: Result<Store, ImportError>)
    requires tid in st.transcripts && EntityClass(wd) && forall c :: c in cs ==> c.Element?
    ensures r.Ok? <==> forall j :: 0 <= j < |cs| ==> cs[j].Element? && ReadElement(wd, cs[j], parses).Ok?
    ensures r.Ok? ==> r.value.transcripts.Keys == st.transcripts.Keys
    ensures r.Ok? ==> r.value.transcripts[tid] == st.transcripts[tid].(witnesses := r.value.transcripts[tid].witnesses)
    ensures r.Ok? ==> forall t :: t in st.transcripts && t != tid ==> r.value.transcripts[t] == st.transcripts[t]
    ensures r.Ok? ==> r.value.bills == st.bills && r.value.aliases == st.aliases
    ensures r.Ok? ==> |r.value.witnesses| == |st.witnesses| + |cs| && st.witnesses <= r.value.witnesses
  {
    LinkWitnesses(OpenWitnesses(st, tid), tid, ReadWitnesses(wd, cs, parses))
  }

  /** The transcript `tid` with a fresh, empty witness set. */
  function OpenWitnesses(st: Store, tid: string): (r: Store)
    requires tid in st.transcripts
    ensures WitnessesOpen(r, tid) && r.transcripts[tid].witnesses == Some({})
    ensures r.witnesses == st.witnesses && r.bills == st.bills && r.aliases == st.aliases
    ensures r.transcripts == st.transcripts[tid := r.transcripts[tid]]
    ensures r.transcripts[tid] == st.transcripts[tid].(witnesses := Some({}))
  {
    st.(transcripts := st.transcripts[tid := st.transcripts[tid].(witnesses := Some({}))])
  }

  /** A witness branch that succeeds appends the decoded children, in order,
      each naming the transcript. */
  lemma SaveWitnessesContents(st: Store, tid: string, cs: seq<Node>, wd: Descriptor, parses: Parser)
    requires tid in st.transcripts && EntityClass(wd) && forall c :: c in cs ==> c.Element?
    requires SaveWitnesses(st, tid, cs, wd, parses).Ok?
    ensures SaveWitnesses(st, tid, cs, wd, parses).value.witnesses == st.witnesses + NewWitnesses(wd, cs, parses, tid)
  {
    var ds := ReadWitnesses(wd, cs, parses);
    var started := OpenWitnesses(st, tid);
    var r := LinkWitnesses(started, tid, ds).value;
    var ws := NewWitnesses(wd, cs, parses, tid);
    LinkWitnessesContents(started, tid, ds);
    forall j | 0 <= j < |cs|
      ensures r.witnesses[|st.witnesses| + j] == ws[j]
    {
      assert r.witnesses[|started.witnesses| + j] == Witness(ds[j].value.fields, Some(tid));
    }
    assert r.witnesses == st.witnesses + ws;
  }

  /** A witness branch that succeeds lists exactly the new witnesses' keys. */
  lemma SaveWitnessesKeys(st: Store, tid: string, cs: seq<Node>, wd: Descriptor, parses: Parser)
    requires tid in st.transcripts && EntityClass(wd) && forall c :: c in cs ==> c.Element?
    requires SaveWitnesses(st, tid, cs, wd, parses).Ok?
    ensures var r := SaveWitnesses(st, tid, cs, wd, parses).value;
            r.transcripts[tid].witnesses == Some(KeyRange(|st.witnesses|, |r.witnesses|))
  {
    var ds := ReadWitnesses(wd, cs, parses);
    var started := OpenWitnesses(st, tid);
    var n := |st.witnesses|;
    LinkWitnessesKeys(started, tid, ds);
    assert {} + KeyRange(n, n + |ds|) == KeyRange(n, n + |ds|);
  }

  /** The `witnesses` container, when present: a fresh empty set is
      installed, then every child element is decoded, saved and linked. It
      fails exactly when some witness does not decode; otherwise the new
      witnesses are the decoded ones, in order, and the transcript lists
      exactly them. */
  function ResolveWitnesses(st: Store, tid: string, e: Node, wd: Descriptor, parses: Parser): (r: Result<Store, ImportError>)
    requires e.Element? && tid in st.transcripts && EntityClass(wd)
    ensures r.Ok? <==> WitnessesDecode(e, wd, parses)
    ensures FirstNamed(e.children, "witnesses").None? ==> r == Ok(st)
    ensures r.Ok? ==> r.value.transcripts.Keys == st.transcripts.Keys
    ensures r.Ok? ==> r.value.transcripts[tid] == st.transcripts[tid].(witnesses := r.value.transcripts[tid].witnesses)
    ensures r.Ok? ==> forall t :: t in st.transcripts && t != tid ==> r.value.transcripts[t] == st.transcripts[t]
    ensures r.Ok? ==> r.value.bills == st.bills && r.value.aliases == st.aliases
    ensures r.Ok? ==> r.value.witnesses == st.witnesses + NewWitnesses(wd, WitnessElements(e), parses, tid)
    ensures r.Ok? && FirstNamed(e.children, "witnesses").Some? ==>
              r.value.transcripts[tid].witnesses == Some(KeyRange(|st.witnesses|, |r.value.witnesses|))
  {
    match FirstNamed(e.children, "witnesses")
    case None => Ok(st)
    case Some(w) =>
      var cs := ElementsOf(w.children);
      assert WitnessElements(e) == cs;
      var r := SaveWitnesses(st, tid, cs, wd, parses);
      if r.Err? then r
      else
        SaveWitnessesContents(st, tid, cs, wd, parses);
        SaveWitnessesKeys(st, tid, cs, wd, parses);
        r
  }

  /** `insertIntoDatabase(e)`: decode the transcript, override its id with the
      `id` attribute, save it, then resolve its bills, committees and
      witnesses, in that order. Any failure fails the whole unit of work. */
  function InsertIntoDatabase(st: Store, e: Node, td: Descriptor, wd: Descriptor,
                              parses: Parser, caseSensitive: bool): (r: Result<Store, ImportError>)
    requires e.Element? && EntityClass(td) && EntityClass(wd)
    ensures r.Ok? <==> && ReadElement(td, e, parses).Ok?
                       && Attribute(e, "id") !in st.transcripts
                       && CommitteesSplit(e)
                       && WitnessesDecode(e, wd, parses)
    ensures ReadElement(td, e, parses).Err? ==> r == Err(DecodeFailed(ReadElement(td, e, parses).error))
    ensures ReadElement(td, e, parses).Ok? && Attribute(e, "id") in st.transcripts ==>
              r == Err(DuplicateTranscript(Attribute(e, "id")))
    ensures r.Ok? ==> Attribute(e, "id") !in st.transcripts
    ensures r.Ok? ==> r.value.transcripts.Keys == st.transcripts.Keys + {Attribute(e, "id")}
    ensures r.Ok? ==> forall t :: t in st.transcripts ==> r.value.transcripts[t] == st.transcripts[t]
    ensures r.Ok? ==> var t := r.value.transcripts[Attribute(e, "id")];
              && t.id == Attribute(e, "id")
              && t.fields == ReadElement(td, e, parses).value.fields - ReplacedTags
              && (t.bills.Some? <==> FirstNamed(e.children, "bills").Some?)
              && (t.committees.Some? <==> FirstNamed(e.children, "committees").Some?)
              && (t.witnesses.Some? <==> FirstNamed(e.children, "witnesses").Some?)
  {
    var decoded := ReadElement(td, e, parses);
    if decoded.Err? then Err(DecodeFailed(decoded.error))
    else
      var id := Attribute(e, "id");
      if id in st.transcripts then Err(DuplicateTranscript(id))
      else
        var saved := SaveTranscript(st, id, decoded.value.fields - ReplacedTags);
        var withBills := ResolveBills(saved, id, e);
        var committed := ResolveCommittees(withBills, id, e, caseSensitive);
        if committed.Err? then Err(committed.error)
        else
          var withCommittees := committed.value;
          assert withCommittees.witnesses == st.witnesses;
          assert withCommittees.transcripts[id].id == id;
          ResolveWitnesses(withCommittees, id, e, wd, parses)
  }
}

=== FILE: transcript_dao_props.dfy ===
/** Properties of the importer across calls: every step keeps the links
    bidirectional and only adds to the store; a bill id seen by two
    transcripts yields one bill linked to both; a committee name resolved
    twice links the same alias and creates it at most once. */
module TranscriptDaoProperties {
  import opened Wrappers
  import opened Dom
  import opened XmlUtil
  import opened SqlLike
  import opened CommitteeNames
  import opened TranscriptStore
  import opened TranscriptDao

  // ---------------------------------------------------------------------
  // Links of a relation carry over when a step does not touch it
  // ---------------------------------------------------------------------

  lemma BillLinksCarry(st: Store, r: Store)
    requires BillLinks(st)
    requires r.transcripts.Keys == st.transcripts.Keys && r.bills == st.bills
    requires forall t :: t in st.transcripts ==> r.transcripts[t].bills == st.transcripts[t].bills
    ensures BillLinks(r)
  {
    forall t, b {:trigger HasBill(r.transcripts[t], b)} | t in r.transcripts && HasBill(r.transcripts[t], b)
      ensures b in r.bills && t in r.bills[b].transcripts
    {
      assert HasBill(st.transcripts[t], b);
    }
  }

  lemma CommitteeLinksCarry(st: Store, r: Store)
    requires CommitteeLinks(st)
    requires r.transcripts.Keys == st.transcripts.Keys && r.aliases == st.aliases
    requires forall t :: t in st.transcripts ==> r.transcripts[t].committees == st.transcripts[t].committees
    ensures CommitteeLinks(r)
  {
    forall t, i {:trigger HasCommittee(r.transcripts[t], i)} | t in r.transcripts && HasCommittee(r.transcripts[t], i)
      ensures 0 <= i < |r.aliases| && t in r.aliases[i].transcripts
    {
      assert HasCommittee(st.transcripts[t], i);
    }
  }

  lemma WitnessLinksCarry(st: Store, r: Store)
    requires WitnessLinks(st)
    requires r.transcripts.Keys == st.transcripts.Keys && r.witnesses == st.witnesses
    requires forall t :: t in st.transcripts ==> r.transcripts[t].witnesses == st.transcripts[t].witnesses
    ensures WitnessLinks(r)
  {
    forall t, i {:trigger HasWitness(r.transcripts[t], i)} | t in r.transcripts && HasWitness(r.transcripts[t], i)
      ensures 0 <= i < |r.witnesses| && r.witnesses[i].transcript == Some(t)
    {
      assert HasWitness(st.transcripts[t], i);
    }
    forall i | 0 <= i < |r.witnesses| && r.witnesses[i].transcript.Some?
      ensures r.witnesses[i].transcript.value in r.transcripts
              && HasWitness(r.transcripts[r.witnesses[i].transcript.value], i)
    {
      assert HasWitness(st.transcripts[st.witnesses[i].transcript.value], i);
    }
  }

  // ---------------------------------------------------------------------
  // Each step keeps the store valid and only adds to it
  // ---------------------------------------------------------------------

  /** The bill links after one get-or-create. */
  lemma GetOrCreateBillLinks(st: Store, tid: string, billId: string)
    requires BillLinks(st) && BillsOpen(st, tid)
    ensures BillLinks(GetOrCreateBill(st, tid, billId))
  {
    var r := GetOrCreateBill(st, tid, billId);
    forall b, t | b in r.bills && t in r.bills[b].transcripts
      ensures t in r.transcripts && HasBill(r.transcripts[t], b)
    {
      if b != billId || t != tid {
        assert b in st.bills && t in st.bills[b].transcripts;
        assert HasBill(st.transcripts[t], b);
      }
    }
    forall t, b {:trigger HasBill(r.transcripts[t], b)} | t in r.transcripts && HasBill(r.transcripts[t], b)
      ensures b in r.bills && t in r.bills[b].transcripts
    {
      if b != billId || t != tid {
        assert HasBill(st.transcripts[t], b);
      }
    }
  }

  lemma GetOrCreateBillKeepsValid(st: Store, tid: string, billId: string)
    requires Valid(st) && BillsOpen(st, tid)
    ensures Valid(GetOrCreateBill(st, tid, billId))
    ensures Extends(st, GetOrCreateBill(st, tid, billId))
  {
    var r := GetOrCreateBill(st, tid, billId);
    GetOrCreateBillLinks(st, tid, billId);
    CommitteeLinksCarry(st, r);
    WitnessLinksCarry(st, r);
  }

  lemma {:induction false} LinkBillsKeepsValid(st: Store, tid: string, cs: seq<Node>)
    requires Valid(st) && BillsOpen(st, tid)
    requires forall c :: c in cs ==> c.Element?
    ensures Valid(LinkBills(st, tid, cs))
    ensures Extends(st, LinkBills(st, tid, cs))
    decreases |cs|
  {
    if cs != [] {
      var mid := GetOrCreateBill(st, tid, Attribute(cs[0], "id"));
      GetOrCreateBillKeepsValid(st, tid, Attribute(cs[0], "id"));
      LinkBillsKeepsValid(mid, tid, cs[1..]);
      ExtendsTransitive(st, mid, LinkBills(mid, tid, cs[1..]));
    }
  }

  /** The transcripts alias `j` of `st` lists; none for a key past the end. */
  function AliasTranscripts(st: Store, j: int): set<string> {
    if 0 <= j < |st.aliases| then st.aliases[j].transcripts else {}
  }

  /** Linking transcript `tid` to alias `k` on both sides, `k` being an
      existing alias or the one appended, keeps the committee links
      bidirectional. */
  lemma AddCommitteeLink(st: Store, r: Store, tid: string, k: nat)
    requires CommitteeLinks(st) && CommitteesOpen(st, tid)
    requires k <= |st.aliases| && |r.aliases| == if k == |st.aliases| then k + 1 else |st.aliases|
    requires forall j :: 0 <= j < |r.aliases| ==>
               r.aliases[j].transcripts == AliasTranscripts(st, j) + (if j == k then {tid} else {})
    requires r.transcripts.Keys == st.transcripts.Keys
    requires forall t :: t in st.transcripts && t != tid ==> r.transcripts[t].committees == st.transcripts[t].committees
    requires r.transcripts[tid].committees == Some(st.transcripts[tid].committees.value + {k})
    ensures CommitteeLinks(r)
  {
    forall i, t | 0 <= i < |r.aliases| && t in r.aliases[i].transcripts
      ensures t in r.transcripts && HasCommittee(r.transcripts[t], i)
    {
      if t != tid || i != k {
        assert t in AliasTranscripts(st, i);
        assert HasCommittee(st.transcripts[t], i);
      }
    }
    forall t, i {:trigger HasCommittee(r.transcripts[t], i)} | t in r.transcripts && HasCommittee(r.transcripts[t], i)
      ensures 0 <= i < |r.aliases| && t in r.aliases[i].transcripts
    {
      if t != tid || i != k {
        assert HasCommittee(st.transcripts[t], i);
        assert t in AliasTranscripts(st, i);
      }
    }
  }

  lemma SaveAliasKeepsValid(st: Store, a: CommitteeAlias)
    requires Valid(st) && a.transcripts == {}
    ensures Valid(SaveAlias(st, a)) && Extends(st, SaveAlias(st, a))
  {
    var r := SaveAlias(st, a);
    forall j | 0 <= j < |r.aliases|
      ensures r.aliases[j].transcripts == AliasTranscripts(st, j)
    {
    }
    forall i, t | 0 <= i < |r.aliases| && t in r.aliases[i].transcripts
      ensures t in r.transcripts && HasCommittee(r.transcripts[t], i)
    {
      assert i < |st.aliases| && r.aliases[i] == st.aliases[i];
    }
    forall t, i {:trigger HasCommittee(r.transcripts[t], i)} | t in r.transcripts && HasCommittee(r.transcripts[t], i)
      ensures 0 <= i < |r.aliases| && t in r.aliases[i].transcripts
    {
      assert HasCommittee(st.transcripts[t], i);
      assert r.aliases[i] == st.aliases[i];
    }
    assert CommitteeLinks(r);
  }

  lemma LinkAliasKeepsValid(st: Store, tid: string, k: nat)
    requires Valid(st) && CommitteesOpen(st, tid) && k < |st.aliases|
    ensures Valid(LinkAlias(st, tid, k)) && Extends(st, LinkAlias(st, tid, k))
  {
    var r := LinkAlias(st, tid, k);
    BillLinksCarry(st, r);
    WitnessLinksCarry(st, r);
    forall j | 0 <= j < |r.aliases|
      ensures r.aliases[j].transcripts == AliasTranscripts(st, j) + (if j == k then {tid} else {})
    {
    }
    AddCommitteeLink(st, r, tid, k);
  }

  /** `insertCommittee` adds `tid` to the chosen alias, appended or existing,
      and changes no other field of any alias. */
  lemma InsertCommitteeAliases(st: Store, tid: string, chamber: Chamber, name: string, caseSensitive: bool)
    requires CommitteesOpen(st, tid)
    ensures var r := InsertCommittee(st, tid, chamber, name, caseSensitive);
            var k := ChosenAlias(st.aliases, chamber, name, caseSensitive);
            && |r.aliases| == (if k == |st.aliases| then k + 1 else |st.aliases|)
            && (forall j :: 0 <= j < |st.aliases| ==>
                  r.aliases[j] == st.aliases[j].(transcripts := AliasTranscripts(st, j) + (if j == k then {tid} else {})))
            && (k == |st.aliases| ==> r.aliases[k] == NewAlias(chamber, name).(transcripts := {tid}))
  {
    var k := ChosenAlias(st.aliases, chamber, name, caseSensitive);
    if k == |st.aliases| {
      var saved := SaveAlias(st, NewAlias(chamber, name));
      assert forall j :: 0 <= j < |st.aliases| ==> saved.aliases[j] == st.aliases[j];
    }
  }

  lemma InsertCommitteeKeepsValid(st: Store, tid: string, chamber: Chamber, name: string, caseSensitive: bool)
    requires Valid(st) && CommitteesOpen(st, tid)
    ensures Valid(InsertCommittee(st, tid, chamber, name, caseSensitive))
    ensures Extends(st, InsertCommittee(st, tid, chamber, name, caseSensitive))
  {
    var k := ChosenAlias(st.aliases, chamber, name, caseSensitive);
    if k == |st.aliases| {
      var saved := SaveAlias(st, NewAlias(chamber, name));
      SaveAliasKeepsValid(st, NewAlias(chamber, name));
      LinkAliasKeepsValid(saved, tid, k);
      ExtendsTransitive(st, saved, LinkAlias(saved, tid, k));
    } else {
      LinkAliasKeepsValid(st, tid, k);
    }
  }

  lemma {:induction false} LinkCommitteesKeepsValid(st: Store, tid: string, names: seq<string>, caseSensitive: bool)
    requires Valid(st) && CommitteesOpen(st, tid)
    requires LinkCommittees(st, tid, names, caseSensitive).Ok?
    ensures Valid(LinkCommittees(st, tid, names, caseSensitive).value)
    ensures Extends(st, LinkCommittees(st, tid, names, caseSensitive).value)
    decreases |names|
  {
    if names != [] {
      var named := ClassifyCommittee(names[0]).value;
      var mid := InsertCommittee(st, tid, named.0, named.1, caseSensitive);
      InsertCommitteeKeepsValid(st, tid, named.0, named.1, caseSensitive);
      LinkCommitteesKeepsValid(mid, tid, names[1..], caseSensitive);
      ExtendsTransitive(st, mid, LinkCommittees(mid, tid, names[1..], caseSensitive).value);
    }
  }

  /** The witness links after one witness is added. */
  lemma AddWitnessLinks(st: Store, tid: string, fields: map<string, Value>)
    requires WitnessLinks(st) && WitnessesOpen(st, tid)
    ensures WitnessLinks(AddWitness(st, tid, fields))
  {
    var r := AddWitness(st, tid, fields);
    forall i | 0 <= i < |r.witnesses| && r.witnesses[i].transcript.Some?
      ensures r.witnesses[i].transcript.value in r.transcripts
              && HasWitness(r.transcripts[r.witnesses[i].transcript.value], i)
    {
      if i < |st.witnesses| {
        assert r.witnesses[i] == st.witnesses[i];
      }
    }
    forall t, i {:trigger HasWitness(r.transcripts[t], i)} | t in r.transcripts && HasWitness(r.transcripts[t], i)
      ensures 0 <= i < |r.witnesses| && r.witnesses[i].transcript == Some(t)
    {
      if t != tid || i != |st.witnesses| {
        assert HasWitness(st.transcripts[t], i);
        assert r.witnesses[i] == st.witnesses[i];
      }
    }
  }

  lemma AddWitnessKeepsValid(st: Store, tid: string, fields: map<string, Value>)
    requires Valid(st) && WitnessesOpen(st, tid)
    ensures Valid(AddWitness(st, tid, fields))
    ensures Extends(st, AddWitness(st, tid, fields))
  {
    var r := AddWitness(st, tid, fields);
    BillLinksCarry(st, r);
    CommitteeLinksCarry(st, r);
    AddWitnessLinks(st, tid, fields);
  }

  lemma {:induction false} LinkWitnessesKeepsValid(st: Store, tid: string, ds: seq<Result<Value, DecodeError>>)
    requires Valid(st) && WitnessesOpen(st, tid) && Records(ds)
    requires LinkWitnesses(st, tid, ds).Ok?
    ensures Valid(LinkWitnesses(st, tid, ds).value)
    ensures Extends(st, LinkWitnesses(st, tid, ds).value)
    decreases |ds|
  {
    if ds != [] {
      var mid := AddWitness(st, tid, ds[0].value.fields);
      AddWitnessKeepsValid(st, tid, ds[0].value.fields);
      assert forall j :: 1 <= j < |ds| ==> ds[j] == ds[1..][j - 1];
      LinkWitnessesKeepsValid(mid, tid, ds[1..]);
      ExtendsTransitive(st, mid, LinkWitnesses(mid, tid, ds[1..]).value);
    }
  }


  /** A transcript saved under a fresh id, with no relation sets, adds no
      link. */
  lemma SaveTranscriptBillLinks(st: Store, id: string, fields: map<string, Value>)
    requires BillLinks(st) && id !in st.transcripts
    ensures BillLinks(SaveTranscript(st, id, fields))
  {
    var r := SaveTranscript(st, id, fields);
    forall t, b {:trigger HasBill(r.transcripts[t], b)} | t in r.transcripts && HasBill(r.transcripts[t], b)
      ensures b in r.bills && t in r.bills[b].transcripts
    {
      assert t != id && HasBill(st.transcripts[t], b);
    }
  }

  lemma SaveTranscriptCommitteeLinks(st: Store, id: string, fields: map<string, Value>)
    requires CommitteeLinks(st) && id !in st.transcripts
    ensures CommitteeLinks(SaveTranscript(st, id, fields))
  {
    var r := SaveTranscript(st, id, fields);
    forall t, i {:trigger HasCommittee(r.transcripts[t], i)} | t in r.transcripts && HasCommittee(r.transcripts[t], i)
      ensures 0 <= i < |r.aliases| && t in r.aliases[i].transcripts
    {
      assert t != id && HasCommittee(st.transcripts[t], i);
    }
  }

  lemma SaveTranscriptWitnessLinks(st: Store, id: string, fields: map<string, Value>)
    requires WitnessLinks(st) && id !in st.transcripts
    ensures WitnessLinks(SaveTranscript(st, id, fields))
  {
    var r := SaveTranscript(st, id, fields);
    forall t, i {:trigger HasWitness(r.transcripts[t], i)} | t in r.transcripts && HasWitness(r.transcripts[t], i)
      ensures 0 <= i < |r.witnesses| && r.witnesses[i].transcript == Some(t)
    {
      assert t != id && HasWitness(st.transcripts[t], i);
    }
  }

  lemma SaveTranscriptKeepsValid(st: Store, id: string, fields: map<string, Value>)
    requires Valid(st) && id !in st.transcripts
    ensures Valid(SaveTranscript(st, id, fields)) && Extends(st, SaveTranscript(st, id, fields))
  {
    SaveTranscriptBillLinks(st, id, fields);
    SaveTranscriptCommitteeLinks(st, id, fields);
    SaveTranscriptWitnessLinks(st, id, fields);
  }

  /** Installing an empty bill set on a transcript that had none. */
  lemma OpenBillsKeepsValid(st: Store, tid: string)
    requires Valid(st) && tid in st.transcripts && st.transcripts[tid].bills.None?
    ensures var r := st.(transcripts := st.transcripts[tid := st.transcripts[tid].(bills := Some({}))]);
            Valid(r) && Extends(st, r)
  {
    var r := st.(transcripts := st.transcripts[tid := st.transcripts[tid].(bills := Some({}))]);
    CommitteeLinksCarry(st, r);
    WitnessLinksCarry(st, r);
    forall b, t | b in r.bills && t in r.bills[b].transcripts
      ensures t in r.transcripts && HasBill(r.transcripts[t], b)
    {
      assert HasBill(st.transcripts[t], b);
    }
    forall t, b {:trigger HasBill(r.transcripts[t], b)} | t in r.transcripts && HasBill(r.transcripts[t], b)
      ensures b in r.bills && t in r.bills[b].transcripts
    {
      assert HasBill(st.transcripts[t], b);
    }
    assert BillLinks(r);
  }

  /** Installing an empty committee set on a transcript that had none. */
  lemma OpenCommitteesKeepsValid(st: Store, tid: string)
    requires Valid(st) && tid in st.transcripts && st.transcripts[tid].committees.None?
    ensures var r := st.(transcripts := st.transcripts[tid := st.transcripts[tid].(committees := Some({}))]);
            Valid(r) && Extends(st, r)
  {
    var r := st.(transcripts := st.transcripts[tid := st.transcripts[tid].(committees := Some({}))]);
    BillLinksCarry(st, r);
    WitnessLinksCarry(st, r);
    forall i, t | 0 <= i < |r.aliases| && t in r.aliases[i].transcripts
      ensures t in r.transcripts && HasCommittee(r.transcripts[t], i)
    {
      assert HasCommittee(st.transcripts[t], i);
    }
    forall t, i {:trigger HasCommittee(r.transcripts[t], i)} | t in r.transcripts && HasCommittee(r.transcripts[t], i)
      ensures 0 <= i < |r.aliases| && t in r.aliases[i].transcripts
    {
      assert HasCommittee(st.transcripts[t], i);
    }
    assert CommitteeLinks(r);
  }

  /** Installing an empty witness set on a transcript that had none. */
  lemma OpenWitnessesKeepsValid(st: Store, tid: string)
    requires Valid(st) && tid in st.transcripts && st.transcripts[tid].witnesses.None?
    ensures var r := st.(transcripts := st.transcripts[tid := st.transcripts[tid].(witnesses := Some({}))]);
            Valid(r) && Extends(st, r)
  {
    var r := st.(transcripts := st.transcripts[tid := st.transcripts[tid].(witnesses := Some({}))]);
    BillLinksCarry(st, r);
    CommitteeLinksCarry(st, r);
    forall i | 0 <= i < |r.witnesses| && r.witnesses[i].transcript.Some?
      ensures r.witnesses[i].transcript.value in r.transcripts
              && HasWitness(r.transcripts[r.witnesses[i].transcript.value], i)
    {
      assert HasWitness(st.transcripts[st.witnesses[i].transcript.value], i);
    }
    forall t, i {:trigger HasWitness(r.transcripts[t], i)} | t in r.transcripts && HasWitness(r.transcripts[t], i)
      ensures 0 <= i < |r.witnesses| && r.witnesses[i].transcript == Some(t)
    {
      assert HasWitness(st.transcripts[t], i);
    }
    assert WitnessLinks(r);
  }

  lemma ResolveBillsKeepsValid(st: Store, tid: string, e: Node)
    requires Valid(st) && e.Element? && tid in st.transcripts && st.transcripts[tid].bills.None?
    ensures Valid(ResolveBills(st, tid, e)) && Extends(st, ResolveBills(st, tid, e))
  {
    match FirstNamed(e.children, "bills")
    case None =>
    case Some(b) =>
      var started := st.(transcripts := st.transcripts[tid := st.transcripts[tid].(bills := Some({}))]);
      OpenBillsKeepsValid(st, tid);
      LinkBillsKeepsValid(started, tid, ElementsOf(b.children));
      ExtendsTransitive(st, started, LinkBills(started, tid, ElementsOf(b.children)));
  }

  lemma ResolveCommitteesKeepsValid(st: Store, tid: string, e: Node, caseSensitive: bool)
    requires Valid(st) && e.Element? && tid in st.transcripts && st.transcripts[tid].committees.None?
    requires ResolveCommittees(st, tid, e, caseSensitive).Ok?
    ensures Valid(ResolveCommittees(st, tid, e, caseSensitive).value)
    ensures Extends(st, ResolveCommittees(st, tid, e, caseSensitive).value)
  {
    match FirstNamed(e.children, "committees")
    case None =>
    case Some(c) =>
      var started := st.(transcripts := st.transcripts[tid := st.transcripts[tid].(committees := Some({}))]);
      OpenCommitteesKeepsValid(st, tid);
      LinkCommitteesKeepsValid(started, tid, CommitteeTexts(ElementsOf(c.children)), caseSensitive);
      ExtendsTransitive(st, started, LinkCommittees(started, tid, CommitteeTexts(ElementsOf(c.children)), caseSensitive).value);
  }

  lemma ResolveWitnessesKeepsValid(st: Store, tid: string, e: Node, wd: Descriptor, parses: Parser)
    requires Valid(st) && e.Element? && tid in st.transcripts && st.transcripts[tid].witnesses.None?
    requires EntityClass(wd) && ResolveWitnesses(st, tid, e, wd, parses).Ok?
    ensures Valid(ResolveWitnesses(st, tid, e, wd, parses).value)
    ensures Extends(st, ResolveWitnesses(st, tid, e, wd, parses).value)
  {
    match FirstNamed(e.children, "witnesses")
    case None =>
    case Some(w) =>
      var started := st.(transcripts := st.transcripts[tid := st.transcripts[tid].(witnesses := Some({}))]);
      OpenWitnessesKeepsValid(st, tid);
      var ds := ReadWitnesses(wd, ElementsOf(w.children), parses);
      LinkWitnessesKeepsValid(started, tid, ds);
      ExtendsTransitive(st, started, LinkWitnesses(started, tid, ds).value);
  }

  /** Importing a transcript keeps every link bidirectional and only adds to
      the store. */
  lemma InsertIntoDatabaseKeepsValid(st: Store, e: Node, td: Descriptor, wd: Descriptor,
                                     parses: Parser, caseSensitive: bool)
    requires Valid(st) && e.Element? && EntityClass(td) && EntityClass(wd)
    requires InsertIntoDatabase(st, e, td, wd, parses, caseSensitive).Ok?
    ensures Valid(InsertIntoDatabase(st, e, td, wd, parses, caseSensitive).value)
    ensures Extends(st, InsertIntoDatabase(st, e, td, wd, parses, caseSensitive).value)
  {
    var id := Attribute(e, "id");
    var fields := ReadElement(td, e, parses).value.fields - ReplacedTags;
    var saved := SaveTranscript(st, id, fields);
    SaveTranscriptKeepsValid(st, id, fields);
    var withBills := ResolveBills(saved, id, e);
    ResolveBillsKeepsValid(saved, id, e);
    ExtendsTransitive(st, saved, withBills);
    var withCommittees := ResolveCommittees(withBills, id, e, caseSensitive).value;
    ResolveCommitteesKeepsValid(withBills, id, e, caseSensitive);
    ExtendsTransitive(st, withBills, withCommittees);
    var r := ResolveWitnesses(withCommittees, id, e, wd, parses).value;
    ResolveWitnessesKeepsValid(withCommittees, id, e, wd, parses);
    ExtendsTransitive(st, withCommittees, r);
  }

  // ---------------------------------------------------------------------
  // Scenarios across calls
  // ---------------------------------------------------------------------

  /** After a successful import whose element has a `bills` container, the
      transcript lists exactly the ids of the container's elements, each of
      those bills lists the transcript, a bill that did not exist is created
      holding the transcript alone, and no other bill is created or changed.
      Without the container the bill table is untouched. */
  lemma InsertIntoDatabaseLinksBills(st: Store, e: Node, td: Descriptor, wd: Descriptor,
                                     parses: Parser, caseSensitive: bool)
    requires Valid(st) && e.Element? && EntityClass(td) && EntityClass(wd)
    requires InsertIntoDatabase(st, e, td, wd, parses, caseSensitive).Ok?
    ensures var r := InsertIntoDatabase(st, e, td, wd, parses, caseSensitive).value;
            FirstNamed(e.children, "bills").None? ==>
              r.transcripts[Attribute(e, "id")].bills == None && r.bills == st.bills
    ensures var r := InsertIntoDatabase(st, e, td, wd, parses, caseSensitive).value;
            var id := Attribute(e, "id");
            FirstNamed(e.children, "bills").Some? ==>
              var ids := BillIdsOf(ElementsOf(FirstNamed(e.children, "bills").value.children));
              && r.transcripts[id].bills == Some(ids)
              && BillsGained(st.bills, r.bills, ids, id)
              && forall b :: b in ids ==> b in r.bills && id in r.bills[b].transcripts
  {
    var id := Attribute(e, "id");
    var fields := ReadElement(td, e, parses).value.fields - ReplacedTags;
    var saved := SaveTranscript(st, id, fields);
    var withBills := ResolveBills(saved, id, e);
    var withCommittees := ResolveCommittees(withBills, id, e, caseSensitive).value;
    var r := ResolveWitnesses(withCommittees, id, e, wd, parses).value;
    assert r.transcripts[id].bills == withBills.transcripts[id].bills;
    assert r.bills == withBills.bills && saved.bills == st.bills;
    if FirstNamed(e.children, "bills").Some? {
      InsertIntoDatabaseKeepsValid(st, e, td, wd, parses, caseSensitive);
      forall b | b in BillIdsOf(ElementsOf(FirstNamed(e.children, "bills").value.children))
        ensures b in r.bills && id in r.bills[b].transcripts
      {
        assert HasBill(r.transcripts[id], b);
      }
    }
  }

  /** After a successful import whose element has a `committees` container,
      the transcript lists exactly the aliases its committee names resolve
      to, and each of those aliases lists the transcript. Earlier aliases
      that were not linked are unchanged, linked ones only gain the
      transcript, and every alias the import appended is one of those keys,
      created for the transcript alone. Without the container the alias
      table is untouched. */
  lemma InsertIntoDatabaseLinksCommittees(st: Store, e: Node, td: Descriptor, wd: Descriptor,
                                          parses: Parser, caseSensitive: bool)
    requires Valid(st) && e.Element? && EntityClass(td) && EntityClass(wd)
    requires InsertIntoDatabase(st, e, td, wd, parses, caseSensitive).Ok?
    ensures var r := InsertIntoDatabase(st, e, td, wd, parses, caseSensitive).value;
            FirstNamed(e.children, "committees").None? ==>
              r.transcripts[Attribute(e, "id")].committees == None && r.aliases == st.aliases
    ensures var r := InsertIntoDatabase(st, e, td, wd, parses, caseSensitive).value;
            var id := Attribute(e, "id");
            var keys := ChosenKeys(r.aliases, CommitteeLookups(e), caseSensitive);
            FirstNamed(e.children, "committees").Some? ==>
              && AliasesGrow(st.aliases, r.aliases)
              && AliasesGained(st.aliases, r.aliases, keys, id)
              && r.transcripts[id].committees == Some(keys)
              && forall k :: k in keys ==> k < |r.aliases| && id in r.aliases[k].transcripts
  {
    var id := Attribute(e, "id");
    var fields := ReadElement(td, e, parses).value.fields - ReplacedTags;
    var saved := SaveTranscript(st, id, fields);
    var withBills := ResolveBills(saved, id, e);
    var withCommittees := ResolveCommittees(withBills, id, e, caseSensitive).value;
    var r := ResolveWitnesses(withCommittees, id, e, wd, parses).value;
    assert r.transcripts[id].committees == withCommittees.transcripts[id].committees;
    assert r.aliases == withCommittees.aliases && withBills.aliases == st.aliases;
    if FirstNamed(e.children, "committees").Some? {
      InsertIntoDatabaseKeepsValid(st, e, td, wd, parses, caseSensitive);
      forall k | k in ChosenKeys(r.aliases, CommitteeLookups(e), caseSensitive)
        ensures k < |r.aliases| && id in r.aliases[k].transcripts
      {
        assert HasCommittee(r.transcripts[id], k);
      }
    }
  }

  /** The store a successful import has built when it reaches the
      `witnesses` container. */
  function BeforeWitnesses(st: Store, e: Node, td: Descriptor, wd: Descriptor,
                           parses: Parser, caseSensitive: bool): (r: Store)
    requires e.Element? && EntityClass(td) && EntityClass(wd)
    requires InsertIntoDatabase(st, e, td, wd, parses, caseSensitive).Ok?
    ensures r.witnesses == st.witnesses && Attribute(e, "id") in r.transcripts
    ensures InsertIntoDatabase(st, e, td, wd, parses, caseSensitive) == ResolveWitnesses(r, Attribute(e, "id"), e, wd, parses)
  {
    var id := Attribute(e, "id");
    var saved := SaveTranscript(st, id, ReadElement(td, e, parses).value.fields - ReplacedTags);
    ResolveCommittees(ResolveBills(saved, id, e), id, e, caseSensitive).value
  }

  /** A successful import appends one witness per child of the `witnesses`
      container, in document order, each holding the child's decoded fields
      and pointing back to the transcript; the witnesses already saved stay. */
  lemma InsertIntoDatabaseAddsWitnesses(st: Store, e: Node, td: Descriptor, wd: Descriptor,
                                        parses: Parser, caseSensitive: bool)
    requires e.Element? && EntityClass(td) && EntityClass(wd)
    requires InsertIntoDatabase(st, e, td, wd, parses, caseSensitive).Ok?
    ensures InsertIntoDatabase(st, e, td, wd, parses, caseSensitive).value.witnesses
         == st.witnesses + NewWitnesses(wd, WitnessElements(e), parses, Attribute(e, "id"))
  {
    var before := BeforeWitnesses(st, e, td, wd, parses, caseSensitive);
  }

  /** After a successful import whose element has a `witnesses` container,
      the transcript lists exactly the witnesses the import appended. */
  lemma InsertIntoDatabaseLinksWitnesses(st: Store, e: Node, td: Descriptor, wd: Descriptor,
                                         parses: Parser, caseSensitive: bool)
    requires e.Element? && EntityClass(td) && EntityClass(wd)
    requires InsertIntoDatabase(st, e, td, wd, parses, caseSensitive).Ok?
    requires FirstNamed(e.children, "witnesses").Some?
    ensures var r := InsertIntoDatabase(st, e, td, wd, parses, caseSensitive).value;
            r.transcripts[Attribute(e, "id")].witnesses == Some(KeyRange(|st.witnesses|, |r.witnesses|))
  {
    var before := BeforeWitnesses(st, e, td, wd, parses, caseSensitive);
    var r := ResolveWitnesses(before, Attribute(e, "id"), e, wd, parses);
    assert r.Ok?;
  }

  /** Two imported transcripts that name the same bill share one bill
      entity, which lists both of them. */
  lemma SameBillTwoTranscripts(st: Store, e1: Node, e2: Node, td: Descriptor, wd: Descriptor,
                               parses: Parser, caseSensitive: bool, b: string)
    requires Valid(st) && e1.Element? && e2.Element? && EntityClass(td) && EntityClass(wd)
    requires InsertIntoDatabase(st, e1, td, wd, parses, caseSensitive).Ok?
    requires InsertIntoDatabase(InsertIntoDatabase(st, e1, td, wd, parses, caseSensitive).value,
                                e2, td, wd, parses, caseSensitive).Ok?
    requires FirstNamed(e1.children, "bills").Some? && FirstNamed(e2.children, "bills").Some?
    requires b in BillIdsOf(ElementsOf(FirstNamed(e1.children, "bills").value.children))
    requires b in BillIdsOf(ElementsOf(FirstNamed(e2.children, "bills").value.children))
    ensures var r1 := InsertIntoDatabase(st, e1, td, wd, parses, caseSensitive).value;
            var r := InsertIntoDatabase(r1, e2, td, wd, parses, caseSensitive).value;
            && Valid(r)
            && b in r.bills && r.bills[b].billID == Some(b)
            && Attribute(e1, "id") in r.bills[b].transcripts
            && Attribute(e2, "id") in r.bills[b].transcripts
            && Attribute(e1, "id") != Attribute(e2, "id")
  {
    var r1 := InsertIntoDatabase(st, e1, td, wd, parses, caseSensitive).value;
    InsertIntoDatabaseLinksBills(st, e1, td, wd, parses, caseSensitive);
    InsertIntoDatabaseKeepsValid(st, e1, td, wd, parses, caseSensitive);
    InsertIntoDatabaseLinksBills(r1, e2, td, wd, parses, caseSensitive);
    InsertIntoDatabaseKeepsValid(r1, e2, td, wd, parses, caseSensitive);
  }

  /** Resolving the same committee name twice links the same alias both
      times, and the second time creates none. */
  lemma CommitteeLinkStable(st: Store, t1: string, t2: string, chamber: Chamber, name: string, caseSensitive: bool)
    requires CommitteesOpen(st, t1) && CommitteesOpen(st, t2)
    ensures var r1 := InsertCommittee(st, t1, chamber, name, caseSensitive);
            && CommitteesOpen(r1, t2)
            && ChosenAlias(r1.aliases, chamber, name, caseSensitive) == ChosenAlias(st.aliases, chamber, name, caseSensitive)
            && ChosenAlias(r1.aliases, chamber, name, caseSensitive) < |r1.aliases|
            && |InsertCommittee(r1, t2, chamber, name, caseSensitive).aliases| == |r1.aliases|
  {
    var r1 := InsertCommittee(st, t1, chamber, name, caseSensitive);
    InsertCommitteeChosen(st, t1, chamber, name, caseSensitive);
    InsertCommitteeAliases(r1, t2, chamber, name, caseSensitive);
  }
}

=== FILE: transcript_store.dfy ===
/** The persistent state the importer works against: the Hibernate session
    and database, as one immutable store of id-keyed entities. Relation links
    are held as id-sets on both sides. */
module TranscriptStore {
  import opened Wrappers
  import opened XmlUtil
  import opened BillIds

  /** A committee alias row. Its key is its position in the table, which is
      also the order the table is scanned in. */
  datatype CommitteeAlias = CommitteeAlias(
    ctyCode: int,
    chamber: int,
    alternateName: Option<string>,
    name: string,
    startYear: int,
    endYear: int,
    transcripts: set<string>)

  /** A witness row: its decoded fields and the transcript it belongs to. Its
      key is its position in the table. */
  datatype Witness = Witness(fields: map<string, Value>, transcript: Option<string>)

  /** A transcript: its id, its decoded scalar fields, and its three relation
      sets, `None` while the importer has not installed one. */
  datatype Transcript = Transcript(
    id: string,
    fields: map<string, Value>,
    bills: Option<set<string>>,
    committees: Option<set<nat>>,
    witnesses: Option<set<nat>>)

  datatype Store = Store(
    transcripts: map<string, Transcript>,
    bills: map<string, BillID>,
    aliases: seq<CommitteeAlias>,
    witnesses: seq<Witness>)

  predicate HasBill(t: Transcript, b: string) {
    t.bills.Some? && b in t.bills.value
  }

  predicate HasCommittee(t: Transcript, i: int) {
    t.committees.Some? && i in t.committees.value
  }

  predicate HasWitness(t: Transcript, i: int) {
    t.witnesses.Some? && i in t.witnesses.value
  }

  /** Entities are stored under their own ids. */
  ghost predicate KeysMatch(st: Store) {
    && (forall t :: t in st.transcripts ==> st.transcripts[t].id == t)
    && (forall b :: b in st.bills ==> st.bills[b].billID == Some(b))
  }

  /** A bill lists a transcript exactly when that transcript lists the bill. */
  ghost predicate BillLinks(st: Store) {
    && (forall b, t :: b in st.bills && t in st.bills[b].transcripts ==>
          t in st.transcripts && HasBill(st.transcripts[t], b))
    && (forall t, b {:trigger HasBill(st.transcripts[t], b)} :: t in st.transcripts && HasBill(st.transcripts[t], b) ==>
          b in st.bills && t in st.bills[b].transcripts)
  }

  /** An alias lists a transcript exactly when that transcript lists the
      alias. */
  ghost predicate CommitteeLinks(st: Store) {
    && (forall i, t :: 0 <= i < |st.aliases| && t in st.aliases[i].transcripts ==>
          t in st.transcripts && HasCommittee(st.transcripts[t], i))
    && (forall t, i {:trigger HasCommittee(st.transcripts[t], i)} :: t in st.transcripts && HasCommittee(st.transcripts[t], i) ==>
          0 <= i < |st.aliases| && t in st.aliases[i].transcripts)
  }

  /** A witness points back to a transcript exactly when that transcript
      lists the witness. */
  ghost predicate WitnessLinks(st: Store) {
    && (forall i :: 0 <= i < |st.witnesses| && st.witnesses[i].transcript.Some? ==>
          st.witnesses[i].transcript.value in st.transcripts
          && HasWitness(st.transcripts[st.witnesses[i].transcript.value], i))
    && (forall t, i {:trigger HasWitness(st.transcripts[t], i)} :: t in st.transcripts && HasWitness(st.transcripts[t], i) ==>
          0 <= i < |st.witnesses| && st.witnesses[i].transcript == Some(t))
  }

  /** Every link is present on both sides and points at a stored entity. */
  ghost predicate Valid(st: Store) {
    KeysMatch(st) && BillLinks(st) && CommitteeLinks(st) && WitnessLinks(st)
  }

  predicate SetGrows<T>(a: Option<set<T>>, b: Option<set<T>>) {
    a.Some? ==> b.Some? && a.value <= b.value
  }

  /** `st'` is `st` with entities and links added and nothing removed or
      rewritten: relation sets only grow. */
  ghost predicate Extends(st: Store, st': Store) {
    && st.transcripts.Keys <= st'.transcripts.Keys
    && (forall t :: t in st.transcripts ==>
          && st'.transcripts[t].id == st.transcripts[t].id
          && st'.transcripts[t].fields == st.transcripts[t].fields
          && SetGrows(st.transcripts[t].bills, st'.transcripts[t].bills)
          && SetGrows(st.transcripts[t].committees, st'.transcripts[t].committees)
          && SetGrows(st.transcripts[t].witnesses, st'.transcripts[t].witnesses))
    && st.bills.Keys <= st'.bills.Keys
    && (forall b :: b in st.bills ==>
          st'.bills[b].billID == st.bills[b].billID && st.bills[b].transcripts <= st'.bills[b].transcripts)
    && |st.aliases| <= |st'.aliases|
    && (forall i :: 0 <= i < |st.aliases| ==>
          st'.aliases[i] == st.aliases[i].(transcripts := st'.aliases[i].transcripts)
          && st.aliases[i].transcripts <= st'.aliases[i].transcripts)
    && st.witnesses <= st'.witnesses
  }

  lemma ExtendsTransitive(a: Store, b: Store, c: Store)
    requires Extends(a, b) && Extends(b, c)
    ensures Extends(a, c)
  {
    forall i | 0 <= i < |a.aliases|
      ensures c.aliases[i] == a.aliases[i].(transcripts := c.aliases[i].transcripts)
    {
      assert b.aliases[i] == a.aliases[i].(transcripts := b.aliases[i].transcripts);
    }
  }
}

=== FILE: wrappers.dfy ===
/** `Option` stands for a Java reference that may be null; `Result` for a
    call that either returns or throws one of the importer's errors. */
module Wrappers {

  /** A value that may be absent (a Java `null`). */
  datatype Option<+T> = None | Some(value: T)

  /** The outcome of an operation that either returns a value or throws. */
  datatype Result<+T, +E> = Ok(value: T) | Err(error: E) {

    predicate IsFailure() {
      Err?
    }

    function PropagateFailure<U>(): Result<U, E>
      requires Err?
    {
      Err(error)
    }

    function Extract(): T
      requires Ok?
    {
      value
    }
  }
}

=== FILE: xml_util.dfy ===
/** The XML utility class: the child-element helpers and the type-directed
    decoder `readElement`. Java reflection is replaced by an explicit
    descriptor of the target type. */
module XmlUtil {
  import opened Wrappers
  import opened Dom

  // ---------------------------------------------------------------------
  // Child-element helpers: reference definitions
  // ---------------------------------------------------------------------

  /** True of an element node whose tag is `name`. */
  predicate Named(n: Node, name: string) {
    n.Element? && n.name == name
  }

  /** The element nodes of `ns`, in order; text and other nodes are skipped. */
  function ElementsOf(ns: seq<Node>): (r: seq<Node>)
    ensures forall n :: n in r <==> n in ns && n.Element?
    ensures |r| <= |ns|
  {
    if ns == [] then []
    else (if ns[0].Element? then [ns[0]] else []) + ElementsOf(ns[1..])
  }

  /** The nodes of `es` whose tag is `name`, in order. */
  function WithName(es: seq<Node>, name: string): (r: seq<Node>)
    ensures forall n :: n in r <==> n in es && n.Element? && n.name == name
    ensures |r| <= |es|
  {
    if es == [] then []
    else (if Named(es[0], name) then [es[0]] else []) + WithName(es[1..], name)
  }

  /** The first element of `ns` named `name`, or None when there is none. */
  function FirstNamed(ns: seq<Node>, name: string): (r: Option<Node>)
    ensures r.None? <==> forall i :: 0 <= i < |ns| ==> !Named(ns[i], name)
    ensures r.Some? ==> exists i :: 0 <= i < |ns| && ns[i] == r.value && Named(ns[i], name)
                                    && forall j :: 0 <= j < i ==> !Named(ns[j], name)
  {
    if ns == [] then None
    else if Named(ns[0], name) then Some(ns[0])
    else
      var r := FirstNamed(ns[1..], name);
      assert forall j :: 1 <= j < |ns| ==> ns[j] == ns[1..][j - 1];
      r
  }

  /** The last element of `ns` named `name`, or None when there is none. */
  function LastNamed(ns: seq<Node>, name: string): (r: Option<Node>)
    ensures r.None? <==> forall i :: 0 <= i < |ns| ==> !Named(ns[i], name)
    ensures r.Some? ==> exists i :: 0 <= i < |ns| && ns[i] == r.value && Named(ns[i], name)
                                    && forall j :: i < j < |ns| ==> !Named(ns[j], name)
  {
    if ns == [] then None
    else
      var rest := LastNamed(ns[1..], name);
      assert forall j :: 1 <= j < |ns| ==> ns[j] == ns[1..][j - 1];
      if rest.Some? then rest
      else if Named(ns[0], name) then Some(ns[0])
      else None
  }

  lemma {:induction false} ElementsOfAppend(a: seq<Node>, b: seq<Node>)
    ensures ElementsOf(a + b) == ElementsOf(a) + ElementsOf(b)
  {
    if a == [] {
      assert a + b == b;
    } else {
      assert (a + b)[1..] == a[1..] + b;
      ElementsOfAppend(a[1..], b);
    }
  }

  lemma {:induction false} WithNameAppend(a: seq<Node>, b: seq<Node>, name: string)
    ensures WithName(a + b, name) == WithName(a, name) + WithName(b, name)
  {
    if a == [] {
      assert a + b == b;
    } else {
      assert (a + b)[1..] == a[1..] + b;
      WithNameAppend(a[1..], b, name);
    }
  }

  /** The first element child named `name` is the head of the named children
      list, and it is absent exactly when that list is empty. */
  lemma {:induction false} FirstNamedIsHeadOfNamed(ns: seq<Node>, name: string)
    ensures FirstNamed(ns, name).None? <==> WithName(ElementsOf(ns), name) == []
    ensures FirstNamed(ns, name).Some? ==> FirstNamed(ns, name).value == WithName(ElementsOf(ns), name)[0]
  {
    if ns != [] {
      var head := if ns[0].Element? then [ns[0]] else [];
      WithNameAppend(head, ElementsOf(ns[1..]), name);
      FirstNamedIsHeadOfNamed(ns[1..], name);
    }
  }

  // ---------------------------------------------------------------------
  // Child-element helpers: the sibling-walking loops of the source
  // ---------------------------------------------------------------------

  /** `getChildElement(e, name)`: the first child element with that name, or
      null. */
  method GetChildElement(e: Node, name: string) returns (r: Option<Node>)
    requires e.Element?
    ensures r == FirstNamed(e.children, name)
    ensures r.None? <==> forall n :: n in e.children ==> !Named(n, name)
    ensures r.Some? ==> r.value in e.children && Named(r.value, name)
  {
    var i := 0;
    while i < |e.children|
      invariant 0 <= i <= |e.children|
      invariant forall j :: 0 <= j < i ==> !Named(e.children[j], name)
    {
      var child := e.children[i];
      if child.Element? && child.name == name {
        return Some(child);
      }
      i := i + 1;
    }
    return None;
  }

  /** `getChildElements(e)`: the element children of `e` in document order. */
  method GetChildElements(e: Node) returns (r: seq<Node>)
    requires e.Element?
    ensures r == ElementsOf(e.children)
    ensures forall n :: n in r <==> n in e.children && n.Element?
  {
    r := [];
    var i := 0;
    while i < |e.children|
      invariant 0 <= i <= |e.children|
      invariant r == ElementsOf(e.children[..i])
    {
      var child := e.children[i];
      if child.Element? {
        r := r + [child];
      }
      assert e.children[..i + 1] == e.children[..i] + [child];
      ElementsOfAppend(e.children[..i], [child]);
      i := i + 1;
    }
    assert e.children[..i] == e.children;
  }

  /** `getChildElements(e, name)`: the element children of `e` named `name`,
      which is the element-children list filtered by name, order kept. */
  method GetChildElementsNamed(e: Node, name: string) returns (r: seq<Node>)
    requires e.Element?
    ensures r == WithName(ElementsOf(e.children), name)
    ensures forall n :: n in r <==> n in e.children && Named(n, name)
  {
    r := [];
    var i := 0;
    while i < |e.children|
      invariant 0 <= i <= |e.children|
      invariant r == WithName(ElementsOf(e.children[..i]), name)
    {
      var child := e.children[i];
      if child.Element? && child.name == name {
        r := r + [child];
      }
      NamedPrefixStep(e.children, i, name);
      i := i + 1;
    }
    assert e.children[..i] == e.children;
  }

  lemma NamedPrefixStep(ns: seq<Node>, i: nat, name: string)
    requires i < |ns|
    ensures WithName(ElementsOf(ns[..i + 1]), name)
         == WithName(ElementsOf(ns[..i]), name) + (if Named(ns[i], name) then [ns[i]] else [])
  {
    assert ns[..i + 1] == ns[..i] + [ns[i]];
    ElementsOfAppend(ns[..i], [ns[i]]);
    WithNameAppend(ElementsOf(ns[..i]), ElementsOf([ns[i]]), name);
    assert ElementsOf([ns[i]]) == if ns[i].Element? then [ns[i]] else [];
  }

  lemma NoElementsOf(ns: seq<Node>)
    requires forall j :: 0 <= j < |ns| ==> !ns[j].Element?
    ensures ElementsOf(ns) == []
  {
    if ns != [] {
      NoElementsOf(ns[1..]);
    }
  }

  /** `hasChildElements(e)`: whether `e` has at least one element child. */
  method HasChildElements(e: Node) returns (b: bool)
    requires e.Element?
    ensures b <==> ElementsOf(e.children) != []
    ensures b <==> exists n :: n in e.children && n.Element?
  {
    var i := 0;
    while i < |e.children|
      invariant 0 <= i <= |e.children|
      invariant forall j :: 0 <= j < i ==> !e.children[j].Element?
    {
      if e.children[i].Element? {
        assert e.children[i] in ElementsOf(e.children);
        return true;
      }
      i := i + 1;
    }
    NoElementsOf(e.children);
    return false;
  }

  // ---------------------------------------------------------------------
  // Type-directed decoding
  // ---------------------------------------------------------------------

  /** The Java primitive types a field can have. */
  datatype PrimKind = Boolean | Byte | Char | Short | Int | Long | Float | Double

  /** Every primitive wrapper class except `Character` declares a constructor
      taking a `String`. */
  predicate WrapperHasStringCtor(k: PrimKind) {
    k != Char
  }

  /** What reflection would reveal about a target class: a primitive type, a
      class implementing `java.util.Set`, or any other class, described by
      whether it declares a `String` constructor that `readElement` may call,
      whether it has a no-argument constructor that `readElement` may call,
      and its declared fields with their types. Classes that declare such a
      constructor without making it accessible to the decoder are not
      described. */
  datatype Descriptor =
    | Prim(kind: PrimKind)
    | SetT
    | Class(stringCtor: bool, defaultCtor: bool, fields: map<string, Descriptor>)

  /** A decoded object: null, an object built by a `String` constructor from
      the given text, or an object whose assigned fields are listed (a field
      absent from the map keeps its default). */
  datatype Value = Null | Scalar(text: string) | Rec(fields: map<string, Value>)

  /** The reflective exceptions `readElement` wraps and rethrows. */
  datatype DecodeError =
    | NoSuchMethod                   // no constructor taking a String
    | Instantiation                  // no usable no-argument constructor
    | NoSuchField(tag: string)       // a child tag names no declared field
    | InvocationTarget(text: string) // a wrapper constructor rejected the text

  /** Whether the `String` constructor of a primitive's wrapper accepts a
      text (`Integer("12")` does, `Integer("x")` throws). Number parsing
      itself is not modelled; it is a parameter of the decoder. */
  type Parser = (PrimKind, string) -> bool

  /** The trimmed text content of an element. */
  function TrimmedText(e: Node): string {
    Trim(TextContent(e))
  }

  /** `readPrimitive`: null for empty trimmed text, otherwise the wrapper's
      `String` constructor applied to the trimmed text. */
  function ReadPrimitive(k: PrimKind, e: Node, parses: Parser): (r: Result<Value, DecodeError>)
    requires e.Element?
    ensures r == Ok(Null) <==> TrimmedText(e) == []
    ensures r.Ok? && r.value != Null ==> r.value == Scalar(TrimmedText(e)) && parses(k, TrimmedText(e))
    ensures r == Err(NoSuchMethod) <==> TrimmedText(e) != [] && !WrapperHasStringCtor(k)
    ensures r.Err? && r.error != NoSuchMethod ==> r.error == InvocationTarget(TrimmedText(e))
    ensures TrimmedText(e) != [] && WrapperHasStringCtor(k) ==>
              (r == Ok(Scalar(TrimmedText(e))) <==> parses(k, TrimmedText(e)))
  {
    var text := TrimmedText(e);
    if text == [] then Ok(Null)
    else if !WrapperHasStringCtor(k) then Err(NoSuchMethod)
    else if parses(k, text) then Ok(Scalar(text))
    else Err(InvocationTarget(text))
  }

  /** `readElement(clazz, e)`. Dispatch order: primitive target; element with
      no element children (built through a `String` constructor); `Set`
      target (skipped, null); any other class (a fresh instance whose fields
      are set from the children, by tag). */
  function ReadElement(d: Descriptor, e: Node, parses: Parser): (r: Result<Value, DecodeError>)
    requires e.Element?
    ensures d.SetT? && r.Ok? ==> r.value == Null
    ensures d.Prim? && r.Ok? ==> !r.value.Rec?
    ensures d.Class? && !d.stringCtor && r.Ok? ==> r.value.Rec?
    ensures d.Class? && ElementsOf(e.children) != [] && r.Ok? ==> r.value.Rec?
    decreases e, 1
  {
    if d.Prim? then ReadPrimitive(d.kind, e, parses)
    else if ElementsOf(e.children) == [] then
      // the String constructor is looked up before the text is examined
      if !(d.Class? && d.stringCtor) then Err(NoSuchMethod)
      else if TrimmedText(e) == [] then Ok(Null)
      else Ok(Scalar(TrimmedText(e)))
    else if d.SetT? then Ok(Null)
    else if !d.defaultCtor then Err(Instantiation)
    else
      var m :- ReadFields(d.fields, e, ElementsOf(e.children), 0, map[], parses);
      Ok(Rec(m))
  }

  /** The loop over the element children `cs` of `e`, from position `i` on:
      each child's tag names a field, which is set to the child decoded at
      that field's type; `acc` holds the fields set so far. */
  function ReadFields(fields: map<string, Descriptor>, e: Node, cs: seq<Node>, i: nat,
                      acc: map<string, Value>, parses: Parser): (r: Result<map<string, Value>, DecodeError>)
    requires e.Element? && cs == ElementsOf(e.children) && i <= |cs|
    ensures r.Ok? ==> acc.Keys <= r.value.Keys <= acc.Keys + fields.Keys
    decreases e, 0, |cs| - i
  {
    if i == |cs| then Ok(acc)
    else
      var child := cs[i];
      assert child in e.children;
      if child.name !in fields then Err(NoSuchField(child.name))
      else
        var v :- ReadElement(fields[child.name], child, parses);
        ReadFields(fields, e, cs, i + 1, acc[child.name := v], parses)
  }

  /** The set of tags of the element nodes in `cs`. */
  function Tags(cs: seq<Node>): set<string> {
    set c | c in cs && c.Element? :: c.name
  }

  // ---------------------------------------------------------------------
  // Properties of the decoder
  // ---------------------------------------------------------------------

  /** A child element can be decoded into its parent's class: its tag names a
      declared field and its content decodes at that field's type. */
  predicate ChildDecodes(fields: map<string, Descriptor>, c: Node, parses: Parser) {
    c.Element? && c.name in fields && ReadElement(fields[c.name], c, parses).Ok?
  }

  /** An element with no element children, read into a non-primitive type:
      the `String` constructor is required even when the text is empty, so a
      `Set` or a class lacking one fails; otherwise empty text is null and
      non-empty text is the constructor applied to the trimmed text. */
  lemma ReadElementLeaf(d: Descriptor, e: Node, parses: Parser)
    requires e.Element? && !d.Prim? && ElementsOf(e.children) == []
    ensures ReadElement(d, e, parses).Ok? <==> d.Class? && d.stringCtor
    ensures ReadElement(d, e, parses).Err? ==> ReadElement(d, e, parses).error == NoSuchMethod
    ensures d.SetT? ==> ReadElement(d, e, parses) == Err(NoSuchMethod)
    ensures d.Class? && d.stringCtor && TrimmedText(e) == [] ==> ReadElement(d, e, parses) == Ok(Null)
    ensures d.Class? && d.stringCtor && TrimmedText(e) != [] ==> ReadElement(d, e, parses) == Ok(Scalar(TrimmedText(e)))
  {
  }

  /** For a primitive target the order is the other way round: the wrapper
      constructor is only looked up for non-empty text, so an empty `char`
      element is null while a non-empty one fails. */
  lemma ReadElementPrimitive(k: PrimKind, e: Node, parses: Parser)
    requires e.Element?
    ensures ReadElement(Prim(k), e, parses) == ReadPrimitive(k, e, parses)
    ensures TrimmedText(e) == [] ==> ReadElement(Prim(k), e, parses) == Ok(Null)
    ensures k == Char && TrimmedText(e) != [] ==> ReadElement(Prim(k), e, parses) == Err(NoSuchMethod)
  {
  }

  /** An element with element children read into a `Set` is skipped: the
      result is null whatever the children are. */
  lemma ReadElementSetSkipped(e1: Node, e2: Node, parses: Parser)
    requires e1.Element? && ElementsOf(e1.children) != []
    requires e2.Element? && ElementsOf(e2.children) != []
    ensures ReadElement(SetT, e1, parses) == Ok(Null)
    ensures ReadElement(SetT, e1, parses) == ReadElement(SetT, e2, parses)
  {
  }

  /** The error a child element that does not decode raises: `NoSuchField`
      for a tag that names no declared field, otherwise the error of reading
      the child at that field's type. */
  function ChildError(fields: map<string, Descriptor>, c: Node, parses: Parser): DecodeError
    requires c.Element? && !ChildDecodes(fields, c, parses)
  {
    if c.name !in fields then NoSuchField(c.name) else ReadElement(fields[c.name], c, parses).error
  }

  /** One round of the field loop: a child whose tag names no declared field
      ends it with `NoSuchField` of that tag, a child that does not decode at
      its field's type ends it with that read's own error, and one that
      decodes sets its field and moves on. */
  lemma ReadFieldsStep(fields: map<string, Descriptor>, e: Node, cs: seq<Node>, i: nat,
                       acc: map<string, Value>, parses: Parser)
    requires e.Element? && cs == ElementsOf(e.children) && i < |cs|
    ensures cs[i].name !in fields ==> ReadFields(fields, e, cs, i, acc, parses) == Err(NoSuchField(cs[i].name))
    ensures cs[i].name in fields && ReadElement(fields[cs[i].name], cs[i], parses).Err? ==>
              ReadFields(fields, e, cs, i, acc, parses) == Err(ReadElement(fields[cs[i].name], cs[i], parses).error)
    ensures !ChildDecodes(fields, cs[i], parses) ==> ReadFields(fields, e, cs, i, acc, parses).Err?
    ensures ChildDecodes(fields, cs[i], parses) ==>
              ReadFields(fields, e, cs, i, acc, parses)
              == ReadFields(fields, e, cs, i + 1, acc[cs[i].name := ReadElement(fields[cs[i].name], cs[i], parses).value], parses)
  {
    assert cs[i] in e.children;
  }

  lemma {:induction false} ReadFieldsSucceeds(fields: map<string, Descriptor>, e: Node, cs: seq<Node>, i: nat,
                                              acc: map<string, Value>, parses: Parser)
    requires e.Element? && cs == ElementsOf(e.children) && i <= |cs|
    ensures ReadFields(fields, e, cs, i, acc, parses).Ok?
        <==> forall j :: i <= j < |cs| ==> ChildDecodes(fields, cs[j], parses)
    decreases |cs| - i
  {
    if i < |cs| {
      ReadFieldsStep(fields, e, cs, i, acc, parses);
      if ChildDecodes(fields, cs[i], parses) {
        var v := ReadElement(fields[cs[i].name], cs[i], parses).value;
        ReadFieldsSucceeds(fields, e, cs, i + 1, acc[cs[i].name := v], parses);
        assert (forall j :: i <= j < |cs| ==> ChildDecodes(fields, cs[j], parses))
           <== (forall j :: i + 1 <= j < |cs| ==> ChildDecodes(fields, cs[j], parses));
      }
    }
  }

  /** The field loop fails with the error of the first child that does not
      decode: the children before it only set fields. */
  lemma {:induction false} ReadFieldsFirstError(fields: map<string, Descriptor>, e: Node, cs: seq<Node>, i: nat,
                                                acc: map<string, Value>, parses: Parser, j: nat)
    requires e.Element? && cs == ElementsOf(e.children) && i <= j < |cs|
    requires forall k :: i <= k < j ==> ChildDecodes(fields, cs[k], parses)
    requires !ChildDecodes(fields, cs[j], parses)
    ensures cs[j].Element? && ReadFields(fields, e, cs, i, acc, parses) == Err(ChildError(fields, cs[j], parses))
    decreases j - i
  {
    assert cs[j] in e.children;
    if i == j {
      ReadFieldsStep(fields, e, cs, i, acc, parses);
    } else {
      assert ChildDecodes(fields, cs[i], parses);
      var v := ReadElement(fields[cs[i].name], cs[i], parses).value;
      var acc' := acc[cs[i].name := v];
      ReadFieldsStep(fields, e, cs, i, acc, parses);
      assert ReadFields(fields, e, cs, i, acc, parses) == ReadFields(fields, e, cs, i + 1, acc', parses);
      ReadFieldsFirstError(fields, e, cs, i + 1, acc', parses, j);
    }
  }

  lemma TagsStep(cs: seq<Node>, i: nat)
    requires i < |cs| && cs[i].Element?
    ensures Tags(cs[i..]) == {cs[i].name} + Tags(cs[i + 1..])
  {
    assert cs[i..] == [cs[i]] + cs[i + 1..];
  }

  /** The field loop sets exactly the fields named by the remaining tags. */
  lemma {:induction false} ReadFieldsKeys(fields: map<string, Descriptor>, e: Node, cs: seq<Node>, i: nat,
                                          acc: map<string, Value>, parses: Parser, m: map<string, Value>)
    requires e.Element? && cs == ElementsOf(e.children) && i <= |cs|
    requires ReadFields(fields, e, cs, i, acc, parses) == Ok(m)
    ensures m.Keys == acc.Keys + Tags(cs[i..])
    decreases |cs| - i
  {
    if i == |cs| {
      assert cs[i..] == [];
    } else {
      var child := cs[i];
      assert child in e.children;
      var v := ReadElement(fields[child.name], child, parses).value;
      ReadFieldsKeys(fields, e, cs, i + 1, acc[child.name := v], parses, m);
      TagsStep(cs, i);
    }
  }

  /** Each field the loop sets holds the value of the last remaining child
      with that tag; a field no remaining child names keeps its value. */
  lemma {:induction false} ReadFieldsLastWins(fields: map<string, Descriptor>, e: Node, cs: seq<Node>, i: nat,
                                              acc: map<string, Value>, parses: Parser, m: map<string, Value>)
    requires e.Element? && cs == ElementsOf(e.children) && i <= |cs|
    requires ReadFields(fields, e, cs, i, acc, parses) == Ok(m)
    ensures forall k :: k in m && LastNamed(cs[i..], k).None? ==> k in acc && m[k] == acc[k]
    ensures forall k :: k in m && LastNamed(cs[i..], k).Some? ==>
              k in fields && ReadElement(fields[k], LastNamed(cs[i..], k).value, parses) == Ok(m[k])
    decreases |cs| - i
  {
    ReadFieldsKeys(fields, e, cs, i, acc, parses, m);
    if i == |cs| {
      assert cs[i..] == [];
    } else {
      var child := cs[i];
      assert child in e.children;
      var v := ReadElement(fields[child.name], child, parses).value;
      var acc' := acc[child.name := v];
      ReadFieldsLastWins(fields, e, cs, i + 1, acc', parses, m);
      forall k | k in m
        ensures LastNamed(cs[i..], k).None? ==> k in acc && m[k] == acc[k]
        ensures LastNamed(cs[i..], k).Some? ==>
                  k in fields && ReadElement(fields[k], LastNamed(cs[i..], k).value, parses) == Ok(m[k])
      {
        LastNamedStep(cs, i, k);
      }
    }
  }

  lemma LastNamedStep(cs: seq<Node>, i: nat, k: string)
    requires i < |cs|
    ensures LastNamed(cs[i..], k)
         == if LastNamed(cs[i + 1..], k).Some? then LastNamed(cs[i + 1..], k)
            else if Named(cs[i], k) then Some(cs[i]) else None
  {
    assert cs[i..][1..] == cs[i + 1..];
  }

  lemma {:induction false} LastNamedOfElements(ns: seq<Node>, k: string)
    ensures LastNamed(ElementsOf(ns), k) == LastNamed(ns, k)
  {
    if ns != [] {
      LastNamedOfElements(ns[1..], k);
      var es := ElementsOf(ns);
      if ns[0].Element? {
        assert es[1..] == ElementsOf(ns[1..]);
      } else {
        assert es == ElementsOf(ns[1..]);
      }
    }
  }

  /** Reading into a class with element children: the result is a fresh
      instance exactly when the class has a no-argument constructor and every
      child element's tag names a declared field and decodes at that field's
      type, so an unknown tag is an error. */
  lemma ReadElementRecordSucceeds(d: Descriptor, e: Node, parses: Parser)
    requires e.Element? && d.Class? && ElementsOf(e.children) != []
    ensures !d.defaultCtor ==> ReadElement(d, e, parses) == Err(Instantiation)
    ensures d.defaultCtor ==>
              (ReadElement(d, e, parses).Ok? <==>
                 forall c :: c in e.children && c.Element? ==> ChildDecodes(d.fields, c, parses))
    ensures (exists c :: c in e.children && c.Element? && c.name !in d.fields) ==> ReadElement(d, e, parses).Err?
    ensures d.defaultCtor && ReadElement(d, e, parses).Ok? ==> ReadElement(d, e, parses).value.Rec?
    ensures var cs := ElementsOf(e.children);
            forall j :: 0 <= j < |cs| && d.defaultCtor && !ChildDecodes(d.fields, cs[j], parses)
                          && (forall k :: 0 <= k < j ==> ChildDecodes(d.fields, cs[k], parses)) ==>
              && (cs[j].name !in d.fields ==> ReadElement(d, e, parses) == Err(NoSuchField(cs[j].name)))
              && (cs[j].name in d.fields ==>
                    ReadElement(d, e, parses) == Err(ReadElement(d.fields[cs[j].name], cs[j], parses).error))
  {
    var cs := ElementsOf(e.children);
    if d.defaultCtor {
      ReadElementFirstError(d, e, parses);
      ReadFieldsSucceeds(d.fields, e, cs, 0, map[], parses);
      assert ReadElement(d, e, parses).Ok? <==> ReadFields(d.fields, e, cs, 0, map[], parses).Ok?;
      assert forall c :: c in e.children && c.Element? <==> c in cs;
      assert (forall j :: 0 <= j < |cs| ==> ChildDecodes(d.fields, cs[j], parses))
         <==> (forall c :: c in cs ==> ChildDecodes(d.fields, c, parses));
    }
  }

  /** With a no-argument constructor, a read into a class with element
      children that fails reports the error of its first failing child. */
  lemma ReadElementFirstError(d: Descriptor, e: Node, parses: Parser)
    requires e.Element? && d.Class? && d.defaultCtor && ElementsOf(e.children) != []
    ensures var cs := ElementsOf(e.children);
            forall j :: 0 <= j < |cs| && d.defaultCtor && !ChildDecodes(d.fields, cs[j], parses)
                          && (forall k :: 0 <= k < j ==> ChildDecodes(d.fields, cs[k], parses)) ==>
              && (cs[j].name !in d.fields ==> ReadElement(d, e, parses) == Err(NoSuchField(cs[j].name)))
              && (cs[j].name in d.fields ==>
                    ReadElement(d, e, parses) == Err(ReadElement(d.fields[cs[j].name], cs[j], parses).error))
  {
    var cs := ElementsOf(e.children);
    forall j | 0 <= j < |cs| && d.defaultCtor && !ChildDecodes(d.fields, cs[j], parses)
                 && (forall k :: 0 <= k < j ==> ChildDecodes(d.fields, cs[k], parses))
      ensures cs[j].name !in d.fields ==> ReadElement(d, e, parses) == Err(NoSuchField(cs[j].name))
      ensures cs[j].name in d.fields ==>
                ReadElement(d, e, parses) == Err(ReadElement(d.fields[cs[j].name], cs[j], parses).error)
    {
      ReadFieldsFirstError(d.fields, e, cs, 0, map[], parses, j);
      assert ReadElement(d, e, parses) == Err(ChildError(d.fields, cs[j], parses));
    }
  }

  /** A successful read into a class with element children assigns exactly
      the fields named by the children's tags (the rest keep their defaults),
      each to the value of the last child carrying that tag. */
  lemma ReadElementRecordFields(d: Descriptor, e: Node, parses: Parser, m: map<string, Value>)
    requires e.Element? && d.Class? && ElementsOf(e.children) != []
    requires ReadElement(d, e, parses) == Ok(Rec(m))
    ensures m.Keys == Tags(e.children)
    ensures forall k :: k in m ==>
              && k in d.fields
              && LastNamed(e.children, k).Some?
              && ReadElement(d.fields[k], LastNamed(e.children, k).value, parses) == Ok(m[k])
  {
    var cs := ElementsOf(e.children);
    ReadElementRecordUnfold(d, e, parses, m);
    ReadFieldsKeys(d.fields, e, cs, 0, map[], parses, m);
    ReadFieldsLastWins(d.fields, e, cs, 0, map[], parses, m);
    assert cs[0..] == cs;
    TagsOfElements(e.children);
    forall k | k in m
      ensures LastNamed(e.children, k) == LastNamed(cs, k)
    {
      LastNamedOfElements(e.children, k);
    }
  }

  lemma ReadElementRecordUnfold(d: Descriptor, e: Node, parses: Parser, m: map<string, Value>)
    requires e.Element? && d.Class? && ElementsOf(e.children) != []
    requires ReadElement(d, e, parses) == Ok(Rec(m))
    ensures ReadFields(d.fields, e, ElementsOf(e.children), 0, map[], parses) == Ok(m)
  {
  }

  lemma TagsOfElements(ns: seq<Node>)
    ensures Tags(ElementsOf(ns)) == Tags(ns)
  {
    var es := ElementsOf(ns);
    forall t | t in Tags(ns)
      ensures t in Tags(es)
    {
      var c :| c in ns && c.Element? && c.name == t;
      assert c in es;
    }
  }
}
